=== FILE: README.md ===
# OllamaAppChat core, modelled in Dafny

OllamaAppChat is a desktop chat client for locally served language models.
Around its window code sit four pieces of real logic, and this project models
and proves properties of each of them.

- **The conversation store, in two revisions.**
  - `ChatManager` of `chat_ui/chat_manager/manager.py` (module `Manager`) keeps
    an in-memory index from id to record. The index is mirrored to one JSON file
    per conversation.
  - The older `ChatManager` of `chat_manager.py` (module `LegacyManager`) works
    on the files alone.
  - Records, messages and the directory of files are in `Records`.
  - The directory is a map from file name (`id + ".json"`) to what `json.load`
    would see there: not JSON, a JSON value that is not an object, or a record.
- **The markdown segmenter** `MarkdownParser.parse_markdown` (module
  `Markdown`). The source's regular-expression search is rewritten as an
  explicit left-to-right scanner. The alternatives are tried in order, and each
  has a lazy body.
- **The command palette filter** `CommandPalette.filter_commands` (module
  `Palette`): a case-insensitive substring filter over an ordered table of
  categories.
- **The window rules.**
  - The chat-list labels of `ui_components.py` are in module `Components`.
  - The create, load, send and delete rules of the two windows are in modules
    `App` (for `chat_ui/ui/app.py`) and `LegacyUi` (for `chat_ui.py`).
  - Both are transitions on an abstract state: the current conversation, the
    store, the model selector and the message entry.

Supporting modules:

- `Base` holds `Option`, `Result` and the Python exceptions that escape.
- `Text` holds Python's `strip`, `split`, `lower`, substring search and string
  order.
- `Sorting` holds `sorted(..., reverse=True)` as a stable insertion sort.

Several things outside the program become parameters:

- the fresh id (`uuid4`) and the timestamps (`datetime.now()`);
- the success of a write;
- the order of `os.listdir` and of dictionary iteration;
- the answer of a confirmation dialog.

Two behaviours of the stores are worth stating up front:

- At startup, a `.json` file holding a JSON value that is not an object is not
  skipped: subscripting it raises `TypeError`, which nothing catches
  (`chat_ui/chat_manager/manager.py:33-36`).
- The newer store catches and prints every error of a write, so a failed
  write raises nothing (`chat_ui/chat_manager/manager.py:96-102`). Opening
  the file for writing empties it first (`chat_ui/chat_manager/manager.py:99`),
  so a write that fails part-way may leave the file truncated.

## Model

| member | source | states |
|---|---|---|
| Records.FileNameInjective | chat_ui/chat_manager/manager.py:97 | distinct ids never share a file name, so saving one conversation cannot overwrite another's file |
| Manager.LoadFile | chat_ui/chat_manager/manager.py:30-37 | one startup step: names not ending in `.json` are ignored; non-JSON text and objects without `id` are skipped; a JSON value that is not an object raises `TypeError`; otherwise the record is indexed under its id |
| Manager.LoadExisting | chat_ui/chat_manager/manager.py:25-37 | over files that can be read, the startup load fails exactly when some `.json` file holds a non-object; otherwise every kept file's id is a key, each key is its record's id, and the record under a key comes from the last kept file in listing order with that id, since a later file overwrites an earlier one |
| Manager.LoadNextKeeps | chat_ui/chat_manager/manager.py:29-37 | loading one more file keeps the outcome of the load: a non-object in a `.json` file raises `TypeError`, and otherwise each kept file's record is indexed under its own id and nothing else is |
| Manager.LoadIgnoresOtherFiles | chat_ui/chat_manager/manager.py:29-30 | adding or changing a file whose name does not end in `.json` does not change what is loaded |
| Manager.LoadOfWrittenDirIsMirrored | chat_ui/chat_manager/manager.py:29-37 | a directory of record files named after their ids loads without error into an index mirrored by that directory |
| Manager.SaveChat | chat_ui/chat_manager/manager.py:96-102 | a successful write puts the record in the file named after its id; a failed write raises nothing and, in the model, leaves the file as it was; no other file changes |
| Manager.CreateNewChat | chat_ui/chat_manager/manager.py:49-60 | the new record has the fresh id, the given model, no messages and both timestamps; it is added under its id and no other entry changes; the id/record agreement and, on a successful write, the mirroring are preserved |
| Manager.AddMessage | chat_ui/chat_manager/manager.py:74-85 | exactly one `{role, content, timestamp}` entry is appended after the unchanged earlier messages; `last_updated` is set; only the record's own index entry and file change; both invariants are preserved |
| Manager.DeleteChat | chat_ui/chat_manager/manager.py:136-143 | an unknown id changes nothing; a known id leaves the index and its file is removed; every other entry and file is kept; both invariants are preserved |
| Manager.GetChatById | chat_ui/chat_manager/manager.py:127 | `None` exactly when the id is not indexed, otherwise the indexed record; never fails |
| Manager.ListChats | chat_ui/chat_manager/manager.py:111-115 | the listing fails with `TypeError` exactly when there are two or more records and one has neither `last_updated` nor `created_at`; otherwise it is a rearrangement of the records taken in dictionary order, so it holds every record once and nothing else, in descending order of `last_updated`, falling back to `created_at` |
| Manager.CreateThenGet | chat_ui/chat_manager/manager.py:49-60 | a created conversation is fetched back by its id with its model and no messages |
| Manager.DeleteThenGet | chat_ui/chat_manager/manager.py:136-143 | after a delete the id is unknown, and deleting again changes nothing |
| Manager.OperationsKeepKeyed | chat_ui/chat_manager/manager.py:54-55 | create, append and delete keep a listing key on every record |
| Manager.AddMessageKeepsListable | chat_ui/chat_manager/manager.py:80-84 | appending to a stored conversation keeps a store that `list_chats()` can sort sortable: the ids stay the same and the record gains `last_updated` |
| Manager.KeyedStoreLists | chat_ui/chat_manager/manager.py:111-115 | a store whose records all carry a listing key can always be listed |
| Manager.AddMessageMovesToFront | chat_ui/chat_manager/manager.py:81 | appending at a time later than every other record's key puts that conversation first in the listing |
| Manager.ListedFirst | chat_ui/chat_manager/manager.py:111-115 | in a store where every record has a listing key, the record whose key is above every other record's key is listed first |
| LegacyManager.SaveChat | chat_manager.py:72-75 | the record is written to the file named after its id; no other file changes |
| LegacyManager.CreateNewChat | chat_manager.py:27-38 | the new record has the fresh id, the given model, `created_at` and no messages, and is saved |
| LegacyManager.AppendAll | chat_manager.py:52-63 | a run of appends leaves the record holding the earlier messages followed by the appended entries in call order; with no entries nothing is written, otherwise the record's file holds the final record |
| LegacyManager.AddMessage | chat_manager.py:52-63 | one entry is appended after the unchanged earlier messages; no other field changes; the record is saved |
| LegacyManager.LoadChat | chat_manager.py:87-93 | `None` exactly when no file exists for the id; a file that is not JSON raises; otherwise the file's content |
| LegacyManager.DeleteChat | chat_manager.py:119-122 | the file for the id is gone; a missing file is a no-op; every other file is kept |
| LegacyManager.ReadFiles | chat_manager.py:103-107 | reading fails exactly when one of the named files is not JSON; otherwise the contents come back in order |
| LegacyManager.BadFilesFail | chat_manager.py:103-110 | reading the `.json` files fails exactly when one of them is not JSON; once read, some value is not an object exactly when some `.json` file holds one |
| LegacyManager.ListChats | chat_manager.py:102-110 | the records of the `.json` files, each exactly as often as a file holds it, in descending `created_at` order with a missing value read as `''`; a file that is not JSON fails the whole listing (decode error), and so does a JSON value that is not an object (attribute error) |
| LegacyManager.ReadRecords | chat_manager.py:102-107 | the records read back are those of the named files that exist and hold an object, in the order of the names |
| LegacyManager.CreateThenLoad | chat_manager.py:27-38 | after creation, loading the id returns the record with that id, the model and no messages |
| LegacyManager.AppendAllThenLoad | chat_manager.py:52-63 | after a run of appends the record holds the earlier messages followed by the appended ones in call order, and a reload returns it |
| Markdown.FindClose | chat_ui/utils/markdown_parser.py:19 | the lazy body stops at the first closing delimiter, which lies on the same line when the body may not cross lines; `None` exactly when there is no such closer |
| Markdown.MatchAt | chat_ui/utils/markdown_parser.py:19 | a match starting at a position is at least two characters long, never crosses a newline, and never comes from the triple-backtick alternative |
| Markdown.BoldBeforeItalic | chat_ui/utils/markdown_parser.py:19 | at `**` the bold alternative is tried first: with a closing `**` on the same line the match is bold up to the first such closer; without one the match is the empty italic `**` |
| Markdown.BacktickShadowsBlock | chat_ui/utils/markdown_parser.py:19 | wherever the triple-backtick alternative could match, the single-backtick alternative already matches "``" |
| Markdown.MatchShape | chat_ui/utils/markdown_parser.py:19 | each alternative's match opens and closes with its delimiter, and the closer does not occur inside the body |
| Markdown.MatchIffRecurs | chat_ui/utils/markdown_parser.py:19 | a match starts at a position exactly when it holds `*` or a backtick that occurs again later on the same line |
| Markdown.FindMatch | chat_ui/utils/markdown_parser.py:22 | the next match starts at the first position at or after the resume point where the pattern matches |
| Markdown.MatchContent | chat_ui/utils/markdown_parser.py:32-49 | bold content is the match minus two characters at each end; italic and inline code drop one; a bare `**` is classified as empty bold; the code-block branch is never taken |
| Markdown.BoldSlice | chat_ui/utils/markdown_parser.py:32-37 | a matched text opening and closing with `**` becomes a bold segment of what lies between them |
| Markdown.ItalicSlice | chat_ui/utils/markdown_parser.py:32-43 | a matched text between single asterisks becomes italic without them; the bare `**` passes the bold test first and becomes empty bold |
| Markdown.CodeSlice | chat_ui/utils/markdown_parser.py:44-49 | a matched text between single backticks becomes inline code without them |
| Markdown.ParseMarkdown | chat_ui/utils/markdown_parser.py:18-70 | empty input gives no segment; normal segments are never empty; no code block is ever produced |
| Markdown.ParseWellFormed | chat_ui/utils/markdown_parser.py:24-49 | one loop step, text before the match and then the match, adds only non-empty normal text and segments that are not code blocks |
| Markdown.Spans | chat_ui/utils/markdown_parser.py:22-28 | the input is cut into consecutive non-overlapping pieces; no match starts inside a plain piece; a plain piece is always followed by a match piece, so the text between two matches is one piece; each match piece is the pattern's match at its start |
| Markdown.MaximalKeeps | chat_ui/utils/markdown_parser.py:24-28 | putting the text before a match, then the match, in front of pieces where no two plain pieces are adjacent keeps that so |
| Markdown.SpansKeep | chat_ui/utils/markdown_parser.py:22-28 | one loop step keeps the pieces a tiling of the rest of the input, with no match inside plain text and each match piece the pattern's match |
| Markdown.SpansCoverInput | chat_ui/utils/markdown_parser.py:22-68 | the pieces lie in the input and, concatenated, are exactly the input |
| Markdown.ParseRendersSpans | chat_ui/utils/markdown_parser.py:24-68 | the parse is the rendering of pieces in which no two plain pieces are adjacent and no match starts inside a plain piece, so each normal segment is the whole verbatim text between consecutive matches, and each other segment is its match's classification, in input order |
| Markdown.PlainText | chat_ui/utils/markdown_parser.py:63-68 | text without `*` and backtick is one normal segment equal to the input |
| Palette.ShownCommands | command_palette.py:96-99 | a category keeps exactly its commands whose lower-cased label contains the term, as a subsequence in the original order |
| Palette.ShownCounts | command_palette.py:96-99 | a shown command is kept as often as it occurs in its category, and a hidden one not at all |
| Palette.FilterCommands | command_palette.py:88-101 | kept categories are never empty; every kept command matches the lower-cased search text; every matching command is kept under its category's name; order of categories and commands is preserved |
| Palette.RefinesMembers | command_palette.py:95-99 | nothing is invented or moved: every shown command belongs to the same-named category of the original table |
| Palette.EmptySearchShowsAll | command_palette.py:88-101 | an empty search shows every category that has a command, whole |
| Palette.SearchCaseIrrelevant | command_palette.py:88 | searching for the lower-cased text shows the same as searching for the text |
| Components.DisplayTitle | ui_components.py:12-14 | an absent title shows `Untitled Chat`; titles of at most 25 characters are unchanged; longer ones become their first 25 characters and `...`, 28 in all; the display always begins with the title's first characters |
| Components.Badge | ui_components.py:27 | the badge is the model, or `Unknown` when absent |
| Components.DistinctPrefixesStayDistinct | ui_components.py:12-14 | titles differing in their first 25 characters stay distinct once cut |
| Components.LongTitlesMerge | ui_components.py:13-14 | long titles agreeing on their first 25 characters are shown alike |
| Components.NewChatListItem | ui_components.py:12-27 | a freshly created conversation is listed as `Untitled Chat` with its model on the badge |
| App.ModelChoice | chat_ui/ui/app.py:253-255 | the two placeholder texts become `default`; any other selection is kept; a placeholder is never chosen |
| App.LoadSelectedChat | chat_ui/ui/app.py:270-277 | the chat always becomes current; the selector changes only when the chat's model is non-empty and among the whitespace-split values |
| App.CreateNewChat | chat_ui/ui/app.py:248-268 | the store creates a chat with the fresh id, the chosen model and no messages, and it becomes current; the refresh of the chat list then raises `TypeError` exactly when the store cannot be listed, leaving the selector as it was; otherwise the selector either stays or moves to one of its values |
| App.CreateOnKeyedStoreLoads | chat_ui/ui/app.py:258-266 | when every stored record has an ordering key and the fresh id is new, creating a chat succeeds and returns the chat that became current |
| App.Deliver | chat_ui/ui/input_handler.py:16-33 | the entry is cleared and exactly one `user` message is appended; the store is the one the store's `add_message` leaves; the worker receives the conversation's messages |
| App.Ready | chat_ui/ui/app.py:280-283 | with a current conversation the window is unchanged; without one, the store and the current conversation are those the store's `create_new_chat` returns for the chosen model, with the fresh id and no messages |
| App.Proceed | chat_ui/ui/app.py:286-290 | with a current conversation, a blank stripped entry stops and leaves the window as it was; otherwise the stripped text is appended as the user's, the store is the store's `add_message` result, and the messages are handed on |
| App.SendMessage | chat_ui/ui/app.py:279-290 | with no current chat one is created first whatever the entry holds, and the send raises `TypeError` exactly when the refresh after that creation cannot list the store, leaving the entry and messages as they were; with a current chat none is created; a blank entry appends nothing and hands nothing on; otherwise the stripped text is appended last and the messages are handed on; the store is left as it was when nothing is created or delivered, is the store's `create_new_chat` result when only a chat is created, and is the store's `add_message` result on that store when the text is delivered |
| App.SendOnKeyedStoreProceeds | chat_ui/ui/app.py:279-290 | when every stored record has an ordering key, a send never raises |
| App.LoadKeepsSynced | chat_ui/ui/app.py:270-271 | loading a stored record keeps the current chat equal to the store's record for its id |
| App.CreateKeepsSynced | chat_ui/ui/app.py:258-263 | after creation the current chat is the store's record for its id |
| App.SendKeepsSynced | chat_ui/ui/app.py:279-290 | after a send the current chat is still the store's record for its id |
| App.LoadIdempotent | chat_ui/ui/app.py:270-277 | loading the same chat twice equals loading it once |
| App.BlankSendSettles | chat_ui/ui/app.py:280-288 | after a blank send a chat is current, so a second blank send changes nothing |
| LegacyUi.LoadChat | chat_ui.py:216-218 | the chat becomes current; nothing else changes |
| LegacyUi.NewChatButton | chat_ui.py:207 | the button text is `Chat ` followed by the first eight characters of the id |
| LegacyUi.CreateNewChat | chat_ui.py:199-214 | the store creates a chat for the selected model as it stands, which becomes current |
| LegacyUi.DeleteSpecificChat | chat_ui.py:389-404 | unconfirmed, nothing changes; confirmed, the file goes, and the current chat is dropped exactly when it has the deleted id |
| LegacyUi.SendMessage | chat_ui.py:413-444 | nothing happens without a current chat or with a blank entry; otherwise the entry is cleared and exactly one `user` message with the stripped text is appended, saved and handed on as the last of the messages |
| LegacyUi.SidebarLabel | chat_ui.py:262 | the title, else `Chat ` and the id's first eight characters; a record without an id fails even when it has a title, because the default is built first |
| LegacyUi.CreatedChatLabel | chat_ui.py:262 | a new chat is listed under the same text as its creation button |
| LegacyUi.CreateKeepsSynced | chat_ui.py:199-218 | after creation the current chat is what its file holds |
| LegacyUi.SendKeepsSynced | chat_ui.py:430-434 | after a send the current chat is what its file holds, and a reload sees the message just sent |
| LegacyUi.DeleteKeepsSynced | chat_ui.py:389-404 | after a delete the current chat, if any, is still what its file holds, and loading the deleted id gives `None` |
| LegacyUi.IgnoredSendLeavesDisk | chat_ui.py:415-425 | a send without a current chat or with a blank entry leaves every file as it was |

## Left out

- Worker threads, response queues, the thinking animation and the model-runtime calls of `models.py` and `ollama_chat_app.py` are left out: they are concurrency and foreign I/O. `send_message` returns the messages it would hand to the worker instead.
- `process_responses` and `check_response_queue` are left out: they race on one queue, and the replies they would append come from the worker.
- `clear_all_chats` is called by both windows, but neither store defines it, so it is not modelled as an operation.
- `MarkdownParser.highlight_code`, the widget classes, layout, dialogs, tag styling and the command-palette actions are left out: they are drawing or subprocess launches.
- JSON encoding and decoding are the identity on records. Partial or corrupting writes are not modelled.
- The older store's write errors propagate to the caller. The model treats its writes as successful.
- Manager.SaveChat: when `writeOk` is false the model keeps the old file. The source opens the file for writing, which empties it, before `json.dump` runs (`chat_ui/chat_manager/manager.py:99-100`), so a failure during the dump may leave the file empty or partial. Partial file contents are not modelled.
- Manager.LoadExisting: a `.json` entry that cannot be read at all (a directory named `x.json`, or bytes that are not UTF-8) makes `open` or `json.load` raise `IsADirectoryError` or `UnicodeDecodeError` (`chat_ui/chat_manager/manager.py:31-33`). Only `JSONDecodeError` and `KeyError` are caught (`chat_ui/chat_manager/manager.py:35`), so the startup load raises. File contents are modelled as parsed JSON, an object or unparsable text, so this failure is not represented.
- LegacyManager.ListChats: for the same reason an unreadable `.json` entry, which makes the listing raise (`chat_manager.py:104-107`), is not represented; nor is an unreadable file in `LegacyManager.LoadChat` (`chat_manager.py:92-93`).
- `Text.Lower` lowers ASCII letters only. Python's `str.lower` also lowers other scripts, which matters for `Palette.FilterCommands` on non-ASCII labels.
- Timestamps are opaque strings, compared by code point.
- The stable order among records with equal keys and the dictionary iteration order are not stated beyond "some order": the orders are parameters.
- The newer store's `create_new_chat(model=None)` default is not modelled: every caller passes a model.
- A JSON `null` and an absent key are not told apart: both are `None`. The source treats a `null` value as present, so four stated claims hold only for records without `null` values:
  - Manager.ListChats: `"last_updated": null` gives the key `None` (`chat_ui/chat_manager/manager.py:113`), so with two or more records the sort raises `TypeError`. The model falls back to `created_at` there.
  - LegacyManager.ListChats: `"created_at": null` is read as `None`, not `''` (`chat_manager.py:110`), and comparing it with a string raises `TypeError`.
  - Components.DisplayTitle: `"title": null` makes `len(None)` raise `TypeError` (`ui_components.py:12-13`). The model shows `Untitled Chat`.
  - Manager.LoadFile: `{"id": null}` is indexed under the key `None` (`chat_ui/chat_manager/manager.py:34`). The model skips such a file.
- Records are assumed to hold a `messages` list.
- The `add_message` and `save_chat` of both stores require the record to have an `id`. The source raises `KeyError` otherwise, and no caller passes such a record.
- App.LoadSelectedChat: treats the selector's values as one whitespace-separated string. Every assignment of the values passes a list (`chat_ui/ui/app.py:238`, `:241`, `:245`), so `cget("values").split()` at `chat_ui/ui/app.py:276` works only if the toolkit hands the list back as a string; if it hands back a list or tuple, the call raises `AttributeError`, which the model does not represent.
- A current conversation that is an empty dictionary, which Python treats as absent, cannot arise: every record has keys.
- The scanner reports matches starting strictly inside the text. The pattern cannot match the empty string, so nothing is lost.

=== FILE: app.dfy ===
/** The decision rules of the newer window (`OllamaChatApp` in
    `chat_ui/ui/app.py`) over the in-memory store of `Manager`: which
    conversation is current, when one is created, when a message is appended
    and when the model selector changes.

    The window's state is the current conversation, the store, the text of the
    model selector and of its list of values, and the text of the message
    entry. Drawing, the worker thread and the response queue are not part of
    the state; what `send_message` hands to the worker is returned instead.
 */
module App {
  import opened Base
  import opened Text
  import opened Records
  import Manager

  datatype Ui = Ui(
    current: Option<Chat>,
    store: Manager.Store,
    combo: string,     // the selected model name
    values: string,    // the selector's list of values, as one string
    entry: string)     // the message being typed

  /** The fresh id, timestamps and write outcome of one `create_new_chat`. */
  datatype Fresh = Fresh(id: string, createdAt: string, updatedAt: string, writeOk: bool)

  /** The timestamps and write outcome of one `add_message`. */
  datatype Stamp = Stamp(timestamp: string, updated: string, writeOk: bool)

  /** The selector texts shown when no model could be listed. */
  const Placeholders: set<string> := {"No models found", "Error loading models"}
  const DefaultModel: string := "default"

  /** The current conversation is the store's record for its id. */
  predicate Synced(ui: Ui) {
    ui.current.Some? ==>
      && ui.current.value.id.Some?
      && ui.current.value.id.value in ui.store.chats
      && ui.store.chats[ui.current.value.id.value] == ui.current.value
  }

  /** The model a new conversation gets: the selected one, or `default` when
      the selector shows a placeholder. */
  function ModelChoice(combo: string): (m: string)
    ensures m !in Placeholders
    ensures combo in Placeholders ==> m == DefaultModel
    ensures combo !in Placeholders ==> m == combo
  {
    if combo in Placeholders then DefaultModel else combo
  }

  /** The selector moves to the conversation's model when that model is one of
      its whitespace-separated values. */
  predicate Selectable(chat: Chat, values: string) {
    chat.model.Some? && chat.model.value != [] && chat.model.value in Split(values)
  }

  /** `load_selected_chat(chat)`. */
  function LoadSelectedChat(ui: Ui, chat: Chat): (r: Ui)
    ensures r.current == Some(chat)
    ensures Selectable(chat, ui.values) ==> r.combo == chat.model.value
    ensures !Selectable(chat, ui.values) ==> r.combo == ui.combo
    ensures r.store == ui.store && r.values == ui.values && r.entry == ui.entry
  {
    var shown := ui.(current := Some(chat));
    if Selectable(chat, ui.values) then shown.(combo := chat.model.value) else shown
  }

  /** `create_new_chat()`: the store creates a conversation for the chosen
      model, which becomes current; the chat list is then refreshed through
      `list_chats()`. When that raises (`TypeError`), the conversation stays
      created and current but is not loaded into the window; otherwise it is
      loaded and returned. */
  function CreateNewChat(ui: Ui, f: Fresh): (r: (Ui, Result<Chat>))
    requires f.id !in ui.store.chats
    ensures r.0.current.Some?
    ensures r.0.current.value.id == Some(f.id) && r.0.current.value.model == Some(ModelChoice(ui.combo))
    ensures r.0.current.value.messages == []
    ensures r.0.store == Manager.CreateNewChat(ui.store, ModelChoice(ui.combo), f.id, f.createdAt, f.updatedAt, f.writeOk).0
    ensures r.1.Ok? <==> Manager.Listable(r.0.store)
    ensures r.1.Ok? ==> r.1.value == r.0.current.value
    ensures r.1.Err? ==> r.1.error == TypeError && r.0.combo == ui.combo
    ensures r.0.combo == ui.combo || r.0.combo in Split(ui.values)
    ensures r.0.values == ui.values && r.0.entry == ui.entry
  {
    var (store, chat) := Manager.CreateNewChat(ui.store, ModelChoice(ui.combo), f.id, f.createdAt, f.updatedAt, f.writeOk);
    var made := ui.(store := store, current := Some(chat));
    if !Manager.Listable(store) then (made, Err(TypeError))
    else (LoadSelectedChat(made, chat), Ok(chat))
  }

  /** The messages of the current conversation, none when there is none. */
  function History(current: Option<Chat>): seq<Message> {
    if current.Some? then current.value.messages else []
  }

  /** `InputHandler.send_message(message)`: empties the entry and appends the
      message as the user's to the current conversation; the conversation's
      messages are what the worker receives. */
  function Deliver(ui: Ui, message: string, st: Stamp): (r: (Ui, seq<Message>))
    requires ui.current.Some? && ui.current.value.id.Some?
    ensures r.0.entry == []
    ensures r.0.current.Some? && r.1 == r.0.current.value.messages
    ensures r.1 == ui.current.value.messages + [Message("user", message, st.timestamp)]
    ensures r.0.combo == ui.combo && r.0.values == ui.values
    ensures r.0.store == Manager.AddMessage(ui.store, ui.current.value, "user", message, st.timestamp, st.updated, st.writeOk).0
  {
    var (store, chat) := Manager.AddMessage(ui.store, ui.current.value, "user", message, st.timestamp, st.updated, st.writeOk);
    assert chat.messages == ui.current.value.messages + [Message("user", message, st.timestamp)];
    (ui.(store := store, current := Some(chat), entry := []), chat.messages)
  }

  /** The first step of `send_message()`: with no current conversation one is
      created for the chosen model and becomes current; otherwise the window
      is as it was. */
  function Ready(ui: Ui, f: Fresh): (r: Ui)
    requires ui.current.None? ==> f.id !in ui.store.chats
    requires ui.current.Some? ==> ui.current.value.id.Some?
    ensures ui.current.Some? ==> r == ui
    ensures ui.current.None? ==>
      && r.store == Manager.CreateNewChat(ui.store, ModelChoice(ui.combo), f.id, f.createdAt, f.updatedAt, f.writeOk).0
      && r.current == Some(Manager.CreateNewChat(ui.store, ModelChoice(ui.combo), f.id, f.createdAt, f.updatedAt, f.writeOk).1)
      && r.current.value.id == Some(f.id)
      && r.current.value.model == Some(ModelChoice(ui.combo))
      && r.current.value.messages == []
      && f.id in r.store.chats
    ensures r.current.Some? && r.current.value.id.Some?
    ensures r.combo == ui.combo && r.values == ui.values && r.entry == ui.entry
  {
    if ui.current.None? then
      var (store, chat) := Manager.CreateNewChat(ui.store, ModelChoice(ui.combo), f.id, f.createdAt, f.updatedAt, f.writeOk);
      ui.(store := store, current := Some(chat))
    else ui
  }

  /** The rest of `send_message()` once a conversation is current: an entry
      that is blank once stripped stops the handler; otherwise the stripped
      text is delivered and the messages are handed on. */
  function Proceed(ready: Ui, st: Stamp): (r: (Ui, Option<seq<Message>>))
    requires ready.current.Some? && ready.current.value.id.Some?
    ensures Strip(ready.entry) == [] <==> r.1.None?
    ensures r.1.None? ==> r.0 == ready
    ensures r.1.Some? ==>
      && r.0.entry == []
      && r.0.current.Some? && r.0.current.value.id == ready.current.value.id
      && r.1.value == r.0.current.value.messages
      && r.1.value == ready.current.value.messages + [Message("user", Strip(ready.entry), st.timestamp)]
      && r.0.store == Manager.AddMessage(ready.store, ready.current.value, "user", Strip(ready.entry),
                                         st.timestamp, st.updated, st.writeOk).0
      && r.0.store.chats.Keys == ready.store.chats.Keys + {ready.current.value.id.value}
    ensures r.0.combo == ready.combo && r.0.values == ready.values
    ensures ready.current.value.id.value in ready.store.chats && Manager.Listable(ready.store) ==>
      Manager.Listable(r.0.store)
  {
    var message := Strip(ready.entry);
    if message == [] then (ready, None)
    else
      var (done, history) := Deliver(ready, message, st);
      if ready.current.value.id.value in ready.store.chats && Manager.Listable(ready.store) then
        Manager.AddMessageKeepsListable(ready.store, ready.current.value, "user", message,
                                        st.timestamp, st.updated, st.writeOk);
        (done, Some(history))
      else (done, Some(history))
  }

  /** `send_message()`: with no current conversation one is created first
      (with the placeholder fallback), whatever the entry holds, and the chat
      list is refreshed; when that refresh raises (`TypeError`) the handler
      stops there. Then an entry that is blank once stripped stops; otherwise
      the stripped text is delivered. The second component is what the worker
      receives, or the error. */
  function SendMessage(ui: Ui, f: Fresh, st: Stamp): (r: (Ui, Result<Option<seq<Message>>>))
    requires ui.current.None? ==> f.id !in ui.store.chats
    requires ui.current.Some? ==> ui.current.value.id.Some?
    ensures r.0.current.Some?
    ensures ui.current.None? ==>
      && r.0.current.value.id == Some(f.id)
      && r.0.current.value.model == Some(ModelChoice(ui.combo))
      && f.id in r.0.store.chats
    ensures ui.current.Some? ==>
      r.0.current.value.id == ui.current.value.id
      && r.0.store.chats.Keys <= ui.store.chats.Keys + {ui.current.value.id.value}
    ensures r.1.Err? <==> ui.current.None? && !Manager.Listable(r.0.store)
    ensures r.1.Err? ==> r.1.error == TypeError
    ensures r.1.Ok? ==> (Strip(ui.entry) == [] <==> r.1.value.None?)
    ensures !(r.1.Ok? && r.1.value.Some?) ==>
      r.0.entry == ui.entry && r.0.current.value.messages == History(ui.current)
    ensures r.1.Ok? && r.1.value.Some? ==>
      && r.0.entry == []
      && r.1.value.value == r.0.current.value.messages
      && r.1.value.value == History(ui.current) + [Message("user", Strip(ui.entry), st.timestamp)]
    ensures r.0.combo == ui.combo && r.0.values == ui.values
    ensures ui.current.Some? && !(r.1.Ok? && r.1.value.Some?) ==> r.0.store == ui.store
    ensures ui.current.None? && !(r.1.Ok? && r.1.value.Some?) ==>
      r.0.store == Manager.CreateNewChat(ui.store, ModelChoice(ui.combo), f.id, f.createdAt, f.updatedAt, f.writeOk).0
    ensures r.1.Ok? && r.1.value.Some? ==>
      var before := Ready(ui, f);
      r.0.store == Manager.AddMessage(before.store, before.current.value, "user", Strip(ui.entry),
                                      st.timestamp, st.updated, st.writeOk).0
  {
    var ready := Ready(ui, f);
    if ui.current.None? && !Manager.Listable(ready.store) then (ready, Err(TypeError))
    else
      var (done, handed) := Proceed(ready, st);
      (done, Ok(handed))
  }

  // ---------------------------------------------------------------------------
  // Properties

  /** The placeholder texts never reach the store as a model name. */
  lemma NoPlaceholderModel(ui: Ui, f: Fresh)
    requires f.id !in ui.store.chats
    ensures CreateNewChat(ui, f).0.current.value.model.value !in Placeholders
  {
  }

  /** Loading a conversation taken from the store keeps the window in step
      with the store. */
  lemma LoadKeepsSynced(ui: Ui, chat: Chat)
    requires Synced(ui)
    requires chat.id.Some? && chat.id.value in ui.store.chats && ui.store.chats[chat.id.value] == chat
    ensures Synced(LoadSelectedChat(ui, chat))
  {
  }

  /** Creating a conversation keeps the window in step with the store. */
  lemma CreateKeepsSynced(ui: Ui, f: Fresh)
    requires f.id !in ui.store.chats
    ensures Synced(CreateNewChat(ui, f).0)
  {
  }

  /** Sending keeps the window in step with the store: the current
      conversation is the store's record, with the new message at its end. */
  lemma SendKeepsSynced(ui: Ui, f: Fresh, st: Stamp)
    requires Synced(ui)
    requires ui.current.None? ==> f.id !in ui.store.chats
    ensures Synced(SendMessage(ui, f, st).0)
  {
  }

  /** Loading the same conversation twice is loading it once. */
  lemma LoadIdempotent(ui: Ui, chat: Chat)
    ensures LoadSelectedChat(LoadSelectedChat(ui, chat), chat) == LoadSelectedChat(ui, chat)
  {
  }

  /** On a store whose records all carry a listing key (as the store's own
      operations keep it), creating never meets the refresh's `TypeError`. */
  lemma CreateOnKeyedStoreLoads(ui: Ui, f: Fresh)
    requires f.id !in ui.store.chats && Manager.AllKeyed(ui.store)
    ensures CreateNewChat(ui, f).1 == Ok(CreateNewChat(ui, f).0.current.value)
  {
    Manager.CreateKeepsListable(ui.store, ModelChoice(ui.combo), f.id, f.createdAt, f.updatedAt, f.writeOk);
  }

  /** On such a store a send is never cut short by the refresh. */
  lemma SendOnKeyedStoreProceeds(ui: Ui, f: Fresh, st: Stamp)
    requires ui.current.None? ==> f.id !in ui.store.chats
    requires ui.current.Some? ==> ui.current.value.id.Some?
    requires Manager.AllKeyed(ui.store)
    ensures SendMessage(ui, f, st).1.Ok?
  {
    if ui.current.None? {
      Manager.CreateKeepsListable(ui.store, ModelChoice(ui.combo), f.id, f.createdAt, f.updatedAt, f.writeOk);
    }
  }

  /** After a blank send the window has a current conversation, so a second
      blank send changes nothing. */
  lemma BlankSendSettles(ui: Ui, f: Fresh, g: Fresh, st: Stamp)
    requires ui.current.None? ==> f.id !in ui.store.chats
    requires ui.current.Some? ==> ui.current.value.id.Some?
    requires Strip(ui.entry) == []
    ensures var once := SendMessage(ui, f, st).0;
      once.current.value.id.Some? && SendMessage(once, g, st) == (once, Ok(None))
  {
  }
}

=== FILE: base.dfy ===
/** Failure-carrying values shared by every part of the model.

    The program signals failure with Python exceptions; each exception that a
    modelled operation can raise becomes one `Error` value, and an operation
    that may raise returns a `Result`.
 */
module Base {

  datatype Option<+T> = None | Some(value: T) {

    /** The value, or `default` when there is none (Python's `dict.get(key, default)`). */
    function GetOr(default: T): T {
      match this
      case Some(v) => v
      case None => default
    }
  }

  /** The exceptions a modelled operation can let escape. */
  datatype Error =
    | DecodeError     // json.JSONDecodeError from reading a file that is not JSON
    | TypeError       // subscripting a non-object JSON value, or comparing None while sorting
    | AttributeError  // calling `.get` on a JSON value that is not an object

  datatype Result<+T> = Ok(value: T) | Err(error: Error)
}

=== FILE: components.dfy ===
/** The two labels of a chat-list entry (`ChatListItem` in `ui_components.py`):
    the title, cut to a fixed width, and the model badge. */
module Components {
  import opened Base
  import opened Text
  import opened Records
  import Manager

  const UntitledTitle: string := "Untitled Chat"
  const TitleWidth: nat := 25
  const Ellipsis: string := "..."
  const UnknownModel: string := "Unknown"

  /** The title shown for a conversation: its `title`, or `Untitled Chat`
      when the key is absent; a title longer than the width keeps its first
      `TitleWidth` characters followed by an ellipsis. */
  function DisplayTitle(chat: Chat): (t: string)
    ensures chat.title.None? ==> t == UntitledTitle
    ensures chat.title.Some? && |chat.title.value| <= TitleWidth ==> t == chat.title.value
    ensures chat.title.Some? && |chat.title.value| > TitleWidth ==>
      |t| == TitleWidth + |Ellipsis| && t[..TitleWidth] == chat.title.value[..TitleWidth] && t[TitleWidth..] == Ellipsis
    ensures Take(chat.title.GetOr(UntitledTitle), TitleWidth) <= t
    ensures |t| <= TitleWidth + |Ellipsis|
  {
    var title := chat.title.GetOr(UntitledTitle);
    if |title| > TitleWidth then title[..TitleWidth] + Ellipsis else title
  }

  /** The badge: the conversation's model, or `Unknown` when the key is absent. */
  function Badge(chat: Chat): (b: string)
    ensures chat.model.Some? ==> b == chat.model.value
    ensures chat.model.None? ==> b == UnknownModel
  {
    chat.model.GetOr(UnknownModel)
  }

  /** Titles that differ within their first `TitleWidth` characters are still
      told apart once cut. */
  lemma DistinctPrefixesStayDistinct(a: Chat, b: Chat)
    requires Take(a.title.GetOr(UntitledTitle), TitleWidth) != Take(b.title.GetOr(UntitledTitle), TitleWidth)
    ensures DisplayTitle(a) != DisplayTitle(b)
  {
    var ta, tb := a.title.GetOr(UntitledTitle), b.title.GetOr(UntitledTitle);
    if |ta| > TitleWidth && |tb| > TitleWidth {
      assert DisplayTitle(a)[..TitleWidth] == Take(ta, TitleWidth);
      assert DisplayTitle(b)[..TitleWidth] == Take(tb, TitleWidth);
    }
  }

  /** Long titles that agree on their first `TitleWidth` characters are shown
      alike: the cut loses whatever follows. */
  lemma LongTitlesMerge(a: Chat, b: Chat)
    requires a.title.Some? && b.title.Some?
    requires |a.title.value| > TitleWidth && |b.title.value| > TitleWidth
    requires a.title.value[..TitleWidth] == b.title.value[..TitleWidth]
    ensures DisplayTitle(a) == DisplayTitle(b)
  {
    var da, db := DisplayTitle(a), DisplayTitle(b);
    assert da == da[..TitleWidth] + da[TitleWidth..];
    assert db == db[..TitleWidth] + db[TitleWidth..];
  }

  /** A conversation just created by the store is listed as `Untitled Chat`
      with its model on the badge. */
  lemma NewChatListItem(s: Manager.Store, model: string, id: string, createdAt: string, updatedAt: string, writeOk: bool)
    requires id !in s.chats
    ensures var c := Manager.CreateNewChat(s, model, id, createdAt, updatedAt, writeOk).1;
      DisplayTitle(c) == UntitledTitle && Badge(c) == model
  {
  }
}

=== FILE: legacy_manager.dfy ===
/** The older, file-only conversation store of `chat_manager.py`: every
    operation goes straight to the directory of JSON files; there is no
    in-memory index and no `last_updated` field.

    `uuid4` becomes an `id` parameter whose file does not exist yet and
    `datetime.now()` becomes timestamp parameters. Writes are taken to
    succeed: this revision lets a write error escape to its caller.
 */
module LegacyManager {
  import opened Base
  import opened Text
  import opened Records
  import opened Sorting

  /** `save_chat`: writes the record to the file named after its id. */
  function SaveChat(dir: Dir, chat: Chat): (d: Dir)
    requires chat.id.Some?
    ensures FileName(chat.id.value) in d && d[FileName(chat.id.value)] == Object(chat)
    ensures d.Keys == dir.Keys + {FileName(chat.id.value)}
    ensures forall name :: name in dir && name != FileName(chat.id.value) ==> d[name] == dir[name]
  {
    dir[FileName(chat.id.value) := Object(chat)]
  }

  /** `create_new_chat(model)` with the fresh id `id`, created at `createdAt`. */
  function CreateNewChat(dir: Dir, model: string, id: string, createdAt: string): (r: (Dir, Chat))
    requires FileName(id) !in dir
    ensures r.1.id == Some(id) && r.1.model == Some(model) && r.1.messages == []
    ensures r.1.createdAt == Some(createdAt) && r.1.lastUpdated == None && r.1.title == None
    ensures r.0 == SaveChat(dir, r.1)
  {
    var chat := Chat(Some(id), Some(model), [], Some(createdAt), None, None);
    (SaveChat(dir, chat), chat)
  }

  /** `add_message(chat, role, content)`: appends one entry stamped `stamp`
      and saves the whole record. */
  function AddMessage(dir: Dir, chat: Chat, role: string, content: string, stamp: string): (r: (Dir, Chat))
    requires chat.id.Some?
    ensures |r.1.messages| == |chat.messages| + 1
    ensures r.1.messages[..|chat.messages|] == chat.messages
    ensures r.1.messages[|chat.messages|] == Message(role, content, stamp)
    ensures r.1.(messages := chat.messages) == chat
    ensures r.0 == SaveChat(dir, r.1)
  {
    var updated := chat.(messages := chat.messages + [Message(role, content, stamp)]);
    (SaveChat(dir, updated), updated)
  }

  /** `load_chat(chat_id)`: `None` when the file does not exist; a file that is
      not JSON makes `json.load` raise; any other content is returned as read. */
  function LoadChat(dir: Dir, id: string): (r: Result<Option<Json>>)
    ensures r == Ok(None) <==> FileName(id) !in dir
    ensures r.Err? <==> FileName(id) in dir && dir[FileName(id)] == Unparsable
    ensures r.Err? ==> r.error == DecodeError
    ensures r.Ok? && r.value.Some? ==> FileName(id) in dir && r.value.value == dir[FileName(id)]
  {
    var name := FileName(id);
    if name !in dir then Ok(None)
    else if dir[name] == Unparsable then Err(DecodeError)
    else Ok(Some(dir[name]))
  }

  /** `delete_chat(chat_id)`: removes the file if it exists. */
  function DeleteChat(dir: Dir, id: string): (d: Dir)
    ensures FileName(id) !in d
    ensures FileName(id) !in dir ==> d == dir
    ensures d.Keys == dir.Keys - {FileName(id)}
    ensures forall name :: name in d ==> d[name] == dir[name]
  {
    dir - {FileName(id)}
  }

  // ---------------------------------------------------------------------------
  // Listing

  /** The names in `listing` that end in `.json`, in listing order. */
  function JsonNamesIn(listing: seq<string>): (names: seq<string>)
    ensures forall n :: n in names <==> n in listing && IsJsonName(n)
    ensures Distinct(listing) ==> Distinct(names)
  {
    if listing == [] then []
    else
      var rest := JsonNamesIn(listing[1..]);
      assert Distinct(listing) ==> Distinct(listing[1..]) by {
        if Distinct(listing) {
          forall i, j | 0 <= i < j < |listing[1..]| ensures listing[1..][i] != listing[1..][j] {
            assert listing[1..][i] == listing[i + 1] && listing[1..][j] == listing[j + 1];
          }
        }
      }
      if IsJsonName(listing[0]) then
        assert Distinct(listing) ==> listing[0] !in listing[1..];
        [listing[0]] + rest
      else rest
  }

  /** `json.load` of each named file in turn; the first file that is not
      JSON makes the whole read raise. */
  function ReadFiles(dir: Dir, names: seq<string>): (r: Result<seq<Json>>)
    requires forall i :: 0 <= i < |names| ==> names[i] in dir
    ensures r.Err? <==> exists i :: 0 <= i < |names| && dir[names[i]] == Unparsable
    ensures r.Err? ==> r.error == DecodeError
    ensures r.Ok? ==> |r.value| == |names| && forall i :: 0 <= i < |names| ==> r.value[i] == dir[names[i]]
  {
    if names == [] then Ok([])
    else if dir[names[0]] == Unparsable then Err(DecodeError)
    else
      match ReadFiles(dir, names[1..])
      case Err(e) =>
        var i :| 0 <= i < |names[1..]| && dir[names[1..][i]] == Unparsable;
        assert dir[names[i + 1]] == Unparsable;
        Err(e)
      case Ok(rest) =>
        assert forall i :: 1 <= i < |names| ==> dir[names[i]] == dir[names[1..][i - 1]];
        Ok([dir[names[0]]] + rest)
  }

  /** The records of a sequence of JSON objects. */
  function ChatsOf(js: seq<Json>): (cs: seq<Chat>)
    requires forall i :: 0 <= i < |js| ==> js[i].Object?
    ensures |cs| == |js|
    ensures forall i :: 0 <= i < |js| ==> cs[i] == js[i].chat
  {
    if js == [] then [] else [js[0].chat] + ChatsOf(js[1..])
  }

  /** The sort key of `list_chats`: `created_at`, or `''` when absent. */
  function CreatedKey(c: Chat): string {
    c.createdAt.GetOr("")
  }

  /** The `.json` files of a directory. */
  function JsonNames(dir: Dir): set<string> {
    set n | n in dir && IsJsonName(n)
  }

  /** `list_chats()`: one record per `.json` file, newest `created_at` first.
      Nothing is caught: a file that is not JSON makes `json.load` raise, and a
      JSON value that is not an object makes the sort key's `.get` raise, so
      one bad file fails the whole listing. */
  function ListChats(dir: Dir, listing: seq<string>): (r: Result<seq<Chat>>)
    requires IsListing(listing, dir)
    ensures r.Err? && r.error == DecodeError <==>
      exists n :: n in JsonNames(dir) && dir[n] == Unparsable
    ensures r.Err? && r.error == AttributeError <==>
      (forall n :: n in JsonNames(dir) ==> dir[n] != Unparsable) && exists n :: n in JsonNames(dir) && dir[n] == NotObject
    ensures r.Err? ==> r.error in {DecodeError, AttributeError}
    ensures r.Ok? ==> |r.value| == |JsonNames(dir)|
    ensures r.Ok? ==> forall n :: n in JsonNames(dir) ==> dir[n].Object? && dir[n].chat in r.value
    ensures r.Ok? ==> forall c :: c in r.value ==> exists n :: n in JsonNames(dir) && dir[n] == Object(c)
    ensures r.Ok? ==> SortedDesc(r.value, CreatedKey)
    ensures r.Ok? ==> multiset(r.value) == multiset(FileRecords(dir, JsonNamesIn(listing)))
  {
    var names := JsonNamesIn(listing);
    NamesAreJsonFiles(dir, listing, names);
    BadFilesFail(dir, names);
    match ReadFiles(dir, names)
    case Err(e) => Err(e)
    case Ok(js) =>
      if exists i :: 0 <= i < |js| && js[i] == NotObject then Err(AttributeError)
      else
        var cs := ChatsOf(js);
        var sorted := SortDesc(cs, CreatedKey);
        ListingCoversFiles(dir, names, js, cs, sorted);
        ReadRecords(dir, names, js);
        Ok(sorted)
  }

  /** The records held by the named files, in order, one per file; a name
      whose file is missing or holds no record contributes nothing. */
  function FileRecords(dir: Dir, names: seq<string>): seq<Chat> {
    if names == [] then []
    else if names[0] in dir && dir[names[0]].Object? then [dir[names[0]].chat] + FileRecords(dir, names[1..])
    else FileRecords(dir, names[1..])
  }

  /** When every named file holds a record, the records read back are
      `FileRecords`. */
  lemma {:induction false} ReadRecords(dir: Dir, names: seq<string>, js: seq<Json>)
    requires forall i :: 0 <= i < |names| ==> names[i] in dir
    requires |js| == |names| && forall i :: 0 <= i < |names| ==> js[i] == dir[names[i]]
    requires forall i :: 0 <= i < |js| ==> js[i].Object?
    ensures ChatsOf(js) == FileRecords(dir, names)
    decreases |names|
  {
    if names != [] {
      ReadRecords(dir, names[1..], js[1..]);
    }
  }

  /** Reading the `.json` files fails exactly when one is not JSON, and a
      read value is not an object exactly when some file holds one. */
  lemma BadFilesFail(dir: Dir, names: seq<string>)
    requires forall n :: n in JsonNames(dir) <==> n in names
    requires forall i :: 0 <= i < |names| ==> names[i] in dir
    ensures ReadFiles(dir, names).Err? <==> exists n :: n in JsonNames(dir) && dir[n] == Unparsable
    ensures var r := ReadFiles(dir, names);
      r.Ok? ==> ((exists i :: 0 <= i < |r.value| && r.value[i] == NotObject) <==>
        exists n :: n in JsonNames(dir) && dir[n] == NotObject)
  {
    var r := ReadFiles(dir, names);
    if r.Err? {
      var i :| 0 <= i < |names| && dir[names[i]] == Unparsable;
      assert names[i] in JsonNames(dir);
    } else {
      if exists i :: 0 <= i < |r.value| && r.value[i] == NotObject {
        var i :| 0 <= i < |r.value| && r.value[i] == NotObject;
        assert names[i] in JsonNames(dir);
      }
    }
    if exists n :: n in JsonNames(dir) && dir[n] == Unparsable {
      var n :| n in JsonNames(dir) && dir[n] == Unparsable;
      var i :| 0 <= i < |names| && names[i] == n;
    }
    if r.Ok? && exists n :: n in JsonNames(dir) && dir[n] == NotObject {
      var n :| n in JsonNames(dir) && dir[n] == NotObject;
      var i :| 0 <= i < |names| && names[i] == n;
      assert r.value[i] == NotObject;
    }
  }

  /** The `.json` names of a listing are the directory's `.json` files, once each. */
  lemma NamesAreJsonFiles(dir: Dir, listing: seq<string>, names: seq<string>)
    requires IsListing(listing, dir)
    requires names == JsonNamesIn(listing)
    ensures forall n :: n in JsonNames(dir) <==> n in names
    ensures forall i :: 0 <= i < |names| ==> names[i] in dir
    ensures |names| == |JsonNames(dir)|
  {
    assert forall i :: 0 <= i < |names| ==> names[i] in names;
    DistinctCard(names);
    assert (set n | n in names) == JsonNames(dir);
  }

  /** Sorting the records read from the `.json` files keeps one per file. */
  lemma ListingCoversFiles(dir: Dir, names: seq<string>, js: seq<Json>, cs: seq<Chat>, sorted: seq<Chat>)
    requires forall n :: n in JsonNames(dir) <==> n in names
    requires forall i :: 0 <= i < |names| ==> names[i] in dir
    requires |js| == |names| && forall i :: 0 <= i < |names| ==> js[i] == dir[names[i]]
    requires forall i :: 0 <= i < |js| ==> js[i].Object?
    requires cs == ChatsOf(js)
    requires multiset(sorted) == multiset(cs)
    ensures |sorted| == |names|
    ensures forall n :: n in JsonNames(dir) ==> dir[n].Object? && dir[n].chat in sorted
    ensures forall c :: c in sorted ==> exists n :: n in JsonNames(dir) && dir[n] == Object(c)
  {
    assert |sorted| == |multiset(sorted)| == |multiset(cs)| == |cs|;
    forall n | n in JsonNames(dir) ensures dir[n].Object? && dir[n].chat in sorted {
      var i :| 0 <= i < |names| && names[i] == n;
      assert cs[i] in multiset(cs);
    }
    forall c | c in sorted ensures exists n :: n in JsonNames(dir) && dir[n] == Object(c) {
      assert c in multiset(cs);
      var i :| 0 <= i < |cs| && cs[i] == c;
      var n := names[i];
      assert n in JsonNames(dir) && dir[n] == Object(c);
    }
  }

  // ---------------------------------------------------------------------------
  // Properties relating several operations

  /** A created conversation loads back with its id, its model and no messages. */
  lemma CreateThenLoad(dir: Dir, model: string, id: string, createdAt: string)
    requires FileName(id) !in dir
    ensures var r := CreateNewChat(dir, model, id, createdAt);
      && LoadChat(r.0, id) == Ok(Some(Object(r.1)))
      && r.1.id == Some(id) && r.1.model == Some(model) && r.1.messages == []
  {
  }

  /** Appending a run of messages one `add_message` call at a time: the record
      gains the messages in call order and nothing else, and after a non-empty
      run its file holds it. */
  function AppendAll(dir: Dir, chat: Chat, entries: seq<Message>): (r: (Dir, Chat))
    requires chat.id.Some?
    ensures r.1 == chat.(messages := chat.messages + entries)
    ensures entries == [] ==> r.0 == dir
    ensures entries != [] ==> FileName(chat.id.value) in r.0 && r.0[FileName(chat.id.value)] == Object(r.1)
    decreases |entries|
  {
    if entries == [] then
      assert chat.messages + entries == chat.messages;
      (dir, chat)
    else
      var step := AddMessage(dir, chat, entries[0].role, entries[0].content, entries[0].timestamp);
      assert step.1.messages == chat.messages + [entries[0]];
      assert chat.messages + [entries[0]] + entries[1..] == chat.messages + entries;
      AppendAll(step.0, step.1, entries[1..])
  }

  /** After any non-empty run of appends a reload sees the earlier messages
      followed by the appended ones, in call order. */
  lemma AppendAllThenLoad(dir: Dir, chat: Chat, entries: seq<Message>)
    requires chat.id.Some?
    ensures var r := AppendAll(dir, chat, entries);
      && r.1.messages == chat.messages + entries
      && (entries != [] ==> LoadChat(r.0, chat.id.value) == Ok(Some(Object(r.1))))
  {
  }
}

=== FILE: legacy_ui.dfy ===
/** The decision rules of the older window (`OllamaChatApp` in `chat_ui.py`)
    over the file-only store of `LegacyManager`: which conversation is current,
    when a message is appended, when the current conversation is dropped, and
    what the sidebar shows.

    The window's state is the current conversation, the conversations
    directory, the text of the model selector and of the message entry.
    Dialogs become a `confirmed` parameter; drawing and the worker thread are
    not part of the state, and what `send_message` hands to the worker is
    returned instead.
 */
module LegacyUi {
  import opened Base
  import opened Text
  import opened Records
  import LegacyManager

  datatype Ui = Ui(
    current: Option<Chat>,
    dir: Dir,
    combo: string,     // the selected model name
    entry: string)     // the message being typed

  /** The current conversation has an id and is what its file holds. */
  predicate Synced(ui: Ui) {
    ui.current.Some? ==>
      && ui.current.value.id.Some?
      && FileName(ui.current.value.id.value) in ui.dir
      && ui.dir[FileName(ui.current.value.id.value)] == Object(ui.current.value)
  }

  /** `load_chat(chat)`: the conversation becomes current. */
  function LoadChat(ui: Ui, chat: Chat): (r: Ui)
    ensures r.current == Some(chat)
    ensures r.dir == ui.dir && r.combo == ui.combo && r.entry == ui.entry
  {
    ui.(current := Some(chat))
  }

  /** The text of the button `create_new_chat` adds for a conversation id. */
  function NewChatButton(id: string): (text: string)
    ensures |text| == 5 + |Take(id, 8)| && text[..5] == "Chat " && text[5..] == Take(id, 8)
  {
    "Chat " + Take(id, 8)
  }

  /** `create_new_chat()`: the store creates a conversation for the selected
      model as it stands (no fallback for placeholder texts) and the window
      loads it. The label of its new button is returned too. */
  function CreateNewChat(ui: Ui, id: string, createdAt: string): (r: (Ui, Chat, string))
    requires FileName(id) !in ui.dir
    ensures r.1.id == Some(id) && r.1.model == Some(ui.combo) && r.1.messages == []
    ensures r.0.current == Some(r.1)
    ensures r.0.dir == LegacyManager.CreateNewChat(ui.dir, ui.combo, id, createdAt).0
    ensures r.2 == NewChatButton(id)
    ensures r.0.combo == ui.combo && r.0.entry == ui.entry
  {
    var (dir, chat) := LegacyManager.CreateNewChat(ui.dir, ui.combo, id, createdAt);
    (LoadChat(ui.(dir := dir), chat), chat, NewChatButton(id))
  }

  /** `delete_specific_chat(chat)` once the dialog is answered: on `Delete`
      the file goes, and the current conversation is dropped when it has the
      deleted id. */
  function DeleteSpecificChat(ui: Ui, chat: Chat, confirmed: bool): (r: Ui)
    requires chat.id.Some?
    requires ui.current.Some? ==> ui.current.value.id.Some?
    ensures !confirmed ==> r == ui
    ensures confirmed ==> r.dir == LegacyManager.DeleteChat(ui.dir, chat.id.value)
    ensures confirmed && ui.current.Some? && ui.current.value.id == chat.id ==> r.current.None?
    ensures !(ui.current.Some? && ui.current.value.id == chat.id) ==> r.current == ui.current
    ensures r.combo == ui.combo && r.entry == ui.entry
  {
    if !confirmed then ui
    else
      var dir := LegacyManager.DeleteChat(ui.dir, chat.id.value);
      if ui.current.Some? && ui.current.value.id.value == chat.id.value then
        ui.(dir := dir, current := None)
      else
        ui.(dir := dir)
  }

  /** `send_message()`: nothing happens without a current conversation or
      when the entry is blank once stripped; otherwise the entry is emptied,
      the stripped text is appended as the user's message and saved, and the
      conversation's messages are what the worker receives. */
  function SendMessage(ui: Ui, stamp: string): (r: (Ui, Option<seq<Message>>))
    requires ui.current.Some? ==> ui.current.value.id.Some?
    ensures ui.current.None? || Strip(ui.entry) == [] <==> r == (ui, None)
    ensures r.1.Some? ==>
      && r.0.entry == []
      && r.0.current.Some? && r.1.value == r.0.current.value.messages
      && r.1.value == ui.current.value.messages + [Message("user", Strip(ui.entry), stamp)]
      && r.0.current.value.(messages := ui.current.value.messages) == ui.current.value
      && r.0.dir == LegacyManager.SaveChat(ui.dir, r.0.current.value)
    ensures r.0.combo == ui.combo
  {
    if ui.current.None? then (ui, None)
    else
      var message := Strip(ui.entry);
      if message == [] then (ui, None)
      else
        var (dir, chat) := LegacyManager.AddMessage(ui.dir, ui.current.value, "user", message, stamp);
        assert chat.messages == ui.current.value.messages + [Message("user", message, stamp)];
        (ui.(dir := dir, current := Some(chat), entry := []), Some(chat.messages))
  }

  /** The sidebar button text of a listed conversation: its `title`, else
      `Chat ` and the first eight characters of its id. The default text is
      built before the lookup, so a record without an id fails (`None`) even
      when it has a title. */
  function SidebarLabel(chat: Chat): (r: Option<string>)
    ensures r.None? <==> chat.id.None?
    ensures r.Some? && chat.title.Some? ==> r.value == chat.title.value
    ensures r.Some? && chat.title.None? ==> r.value == NewChatButton(chat.id.value)
  {
    match chat.id
    case None => None
    case Some(id) => Some(chat.title.GetOr(NewChatButton(id)))
  }

  // ---------------------------------------------------------------------------
  // Properties

  /** A conversation created in this window is listed under the same text as
      the button it was created with. */
  lemma CreatedChatLabel(ui: Ui, id: string, createdAt: string)
    requires FileName(id) !in ui.dir
    ensures var r := CreateNewChat(ui, id, createdAt);
      SidebarLabel(r.1) == Some(r.2)
  {
  }

  /** Creating keeps the window in step with the directory. */
  lemma CreateKeepsSynced(ui: Ui, id: string, createdAt: string)
    requires FileName(id) !in ui.dir
    ensures Synced(CreateNewChat(ui, id, createdAt).0)
  {
  }

  /** Sending keeps the window in step with the directory: a reload of the
      current conversation sees the message just sent, last. */
  lemma SendKeepsSynced(ui: Ui, stamp: string)
    requires Synced(ui)
    ensures Synced(SendMessage(ui, stamp).0)
    ensures var r := SendMessage(ui, stamp);
      r.1.Some? ==> LegacyManager.LoadChat(r.0.dir, ui.current.value.id.value) == Ok(Some(Object(r.0.current.value)))
  {
  }

  /** Deleting keeps the window in step with the directory: deleting the
      current conversation drops it, and deleting another one leaves the
      current conversation's file alone (distinct ids never share a file). */
  lemma DeleteKeepsSynced(ui: Ui, chat: Chat, confirmed: bool)
    requires Synced(ui)
    requires chat.id.Some?
    ensures Synced(DeleteSpecificChat(ui, chat, confirmed))
    ensures confirmed ==> LegacyManager.LoadChat(DeleteSpecificChat(ui, chat, confirmed).dir, chat.id.value) == Ok(None)
  {
    if confirmed && ui.current.Some? && ui.current.value.id != chat.id {
      var cur := ui.current.value.id.value;
      if FileName(cur) == FileName(chat.id.value) {
        FileNameInjective(cur, chat.id.value);
      }
    }
  }

  /** Sending without a current conversation, or with a blank entry, leaves
      every conversation on disk as it was. */
  lemma IgnoredSendLeavesDisk(ui: Ui, stamp: string)
    requires ui.current.Some? ==> ui.current.value.id.Some?
    requires ui.current.None? || AllSpace(ui.entry)
    ensures SendMessage(ui, stamp).0.dir == ui.dir
  {
  }
}

=== FILE: manager.dfy ===
/** The conversation store of `chat_ui/chat_manager/manager.py`: an in-memory
    index from id to record, mirrored to one JSON file per conversation.

    `uuid4` becomes an `id` parameter that is not yet a key of the index;
    `datetime.now()` becomes timestamp parameters; whether a file write
    succeeds becomes the `writeOk` parameter. Python's dictionary iteration
    order and `os.listdir` order are left open: operations that depend on
    them take the order as a parameter.
 */
module Manager {
  import opened Base
  import opened Text
  import opened Records
  import opened Sorting

  /** The manager's state: the index `self.chats` and the directory. */
  datatype Store = Store(chats: map<string, Chat>, dir: Dir)

  /** Every record is filed under its own id. */
  predicate Coherent(chats: map<string, Chat>) {
    forall k :: k in chats ==> chats[k].id == Some(k)
  }

  /** Every record in the index is the content of the file named after its id. */
  predicate Mirrored(s: Store) {
    forall k :: k in s.chats ==> FileName(k) in s.dir && s.dir[FileName(k)] == Object(s.chats[k])
  }

  /** `order` lists every key of `chats` exactly once. */
  predicate IsOrderOf(order: seq<string>, chats: map<string, Chat>) {
    && (forall i, j :: 0 <= i < j < |order| ==> order[i] != order[j])
    && (forall k :: k in chats ==> k in order)
    && (forall i :: 0 <= i < |order| ==> order[i] in chats)
  }

  // ---------------------------------------------------------------------------
  // Startup load

  /** One step of `_load_existing_chats`: a file whose name does not end in
      `.json` is ignored; text that is not JSON (`JSONDecodeError`) and an
      object without `id` (`KeyError`) are skipped; a JSON value that is not
      an object raises `TypeError`, which nothing catches. */
  function LoadFile(m: map<string, Chat>, name: string, content: Json): (r: Result<map<string, Chat>>)
    ensures !IsJsonName(name) ==> r == Ok(m)
    ensures r.Err? <==> IsJsonName(name) && content == NotObject
    ensures r.Ok? && content.Object? && content.chat.id.Some? && IsJsonName(name) ==>
      r.value == m[content.chat.id.value := content.chat]
    ensures r.Ok? && !(content.Object? && content.chat.id.Some?) ==> r.value == m
  {
    if !IsJsonName(name) then Ok(m)
    else
      match content
      case Unparsable => Ok(m)
      case NotObject => Err(TypeError)
      case Object(c) => if c.id.None? then Ok(m) else Ok(m[c.id.value := c])
  }

  /** A `.json` file of the listing whose content the load keeps. */
  predicate KeptFile(dir: Dir, name: string) {
    name in dir && IsJsonName(name) && dir[name].Object? && dir[name].chat.id.Some?
  }

  /** What loading the files `listing` of `dir` gives: it fails (with
      `TypeError`) exactly when some `.json` file holds a non-object; otherwise
      every record is filed under its id, every kept file's id is a key, and
      the record under a key comes from the last kept file in `listing` with
      that id (a later file overwrites an earlier one). */
  predicate Loaded(dir: Dir, listing: seq<string>, r: Result<map<string, Chat>>)
    requires forall i :: 0 <= i < |listing| ==> listing[i] in dir
  {
    && (r.Err? <==> exists i :: 0 <= i < |listing| && IsJsonName(listing[i]) && dir[listing[i]] == NotObject)
    && (r.Err? ==> r.error == TypeError)
    && (r.Ok? ==> Coherent(r.value))
    && (r.Ok? ==> forall i :: 0 <= i < |listing| && KeptFile(dir, listing[i]) ==>
      dir[listing[i]].chat.id.value in r.value)
    && (r.Ok? ==> forall k :: k in r.value ==> LastKept(dir, listing, k, r.value[k]))
  }

  /** `chat` is held by a kept file of `listing` after which no kept file
      holds id `k`. */
  predicate LastKept(dir: Dir, listing: seq<string>, k: string, chat: Chat)
    requires forall i :: 0 <= i < |listing| ==> listing[i] in dir
  {
    exists i :: 0 <= i < |listing| && KeptFile(dir, listing[i]) && dir[listing[i]].chat == chat
      && forall j :: i < j < |listing| && KeptFile(dir, listing[j]) ==> dir[listing[j]].chat.id != Some(k)
  }

  /** `_load_existing_chats` over the files of `dir` in the order `listing`. */
  function LoadExisting(dir: Dir, listing: seq<string>): (r: Result<map<string, Chat>>)
    requires forall i :: 0 <= i < |listing| ==> listing[i] in dir
    ensures Loaded(dir, listing, r)
    decreases |listing|
  {
    if listing == [] then Ok(map[])
    else
      var n := |listing| - 1;
      assert forall i :: 0 <= i < n ==> listing[..n][i] == listing[i];
      var prev := LoadExisting(dir, listing[..n]);
      LoadNextKeeps(dir, listing, prev);
      LoadNext(dir, listing, prev)
  }

  /** The last file of a non-empty listing, loaded after the others gave `prev`. */
  function LoadNext(dir: Dir, listing: seq<string>, prev: Result<map<string, Chat>>): Result<map<string, Chat>>
    requires listing != [] && listing[|listing| - 1] in dir
  {
    match prev
    case Err(_) => prev
    case Ok(m) => LoadFile(m, listing[|listing| - 1], dir[listing[|listing| - 1]])
  }

  /** Loading one more file keeps what `Loaded` promises. */
  lemma LoadNextKeeps(dir: Dir, listing: seq<string>, prev: Result<map<string, Chat>>)
    requires listing != [] && forall i :: 0 <= i < |listing| ==> listing[i] in dir
    requires Loaded(dir, listing[..|listing| - 1], prev)
    ensures Loaded(dir, listing, LoadNext(dir, listing, prev))
  {
    var n := |listing| - 1;
    var prefix := listing[..n];
    assert forall i :: 0 <= i < n ==> prefix[i] == listing[i];
    if prev.Err? {
      var i :| 0 <= i < n && IsJsonName(prefix[i]) && dir[prefix[i]] == NotObject;
      assert IsJsonName(listing[i]) && dir[listing[i]] == NotObject;
    } else {
      var r := LoadFile(prev.value, listing[n], dir[listing[n]]);
      if r.Ok? {
        forall k | k in r.value
          ensures LastKept(dir, listing, k, r.value[k])
        {
          if KeptFile(dir, listing[n]) && k == dir[listing[n]].chat.id.value {
            LastKeptHere(dir, listing);
          } else {
            LastKeptExtends(dir, listing, k, prev.value[k]);
          }
        }
      }
    }
  }

  /** The last file of the listing, when kept, is the last kept file for its id. */
  lemma LastKeptHere(dir: Dir, listing: seq<string>)
    requires listing != [] && forall i :: 0 <= i < |listing| ==> listing[i] in dir
    requires KeptFile(dir, listing[|listing| - 1])
    ensures var c := dir[listing[|listing| - 1]].chat;
      LastKept(dir, listing, c.id.value, c)
  {
  }

  /** A file that does not hold id `k` keeps the last kept file for `k`. */
  lemma LastKeptExtends(dir: Dir, listing: seq<string>, k: string, chat: Chat)
    requires listing != [] && forall i :: 0 <= i < |listing| ==> listing[i] in dir
    requires LastKept(dir, listing[..|listing| - 1], k, chat)
    requires !(KeptFile(dir, listing[|listing| - 1]) && dir[listing[|listing| - 1]].chat.id == Some(k))
    ensures LastKept(dir, listing, k, chat)
  {
    var n := |listing| - 1;
    var prefix := listing[..n];
    var i :| 0 <= i < n && KeptFile(dir, prefix[i]) && dir[prefix[i]].chat == chat
      && forall j :: i < j < n && KeptFile(dir, prefix[j]) ==> dir[prefix[j]].chat.id != Some(k);
    assert prefix[i] == listing[i];
    forall j | i < j < |listing| && KeptFile(dir, listing[j])
      ensures dir[listing[j]].chat.id != Some(k)
    {
      if j < n {
        assert prefix[j] == listing[j];
      }
    }
    assert 0 <= i < |listing| && KeptFile(dir, listing[i]) && dir[listing[i]].chat == chat;
  }

  /** Files whose name does not end in `.json` play no part in the load. */
  lemma LoadIgnoresOtherFiles(dir: Dir, listing: seq<string>, name: string, content: Json)
    requires forall i :: 0 <= i < |listing| ==> listing[i] in dir
    requires !IsJsonName(name) && name !in listing
    ensures LoadExisting(dir[name := content], listing) == LoadExisting(dir, listing)
    ensures LoadExisting(dir[name := content], listing + [name]) == LoadExisting(dir, listing)
  {
    OtherFileKeepsLoad(dir, listing, name, content);
    var dir' := dir[name := content];
    assert (listing + [name])[..|listing|] == listing;
  }

  /** Changing a file that is not in the listing changes nothing. */
  lemma {:induction false} OtherFileKeepsLoad(dir: Dir, listing: seq<string>, name: string, content: Json)
    requires forall i :: 0 <= i < |listing| ==> listing[i] in dir
    requires name !in listing
    ensures LoadExisting(dir[name := content], listing) == LoadExisting(dir, listing)
    decreases |listing|
  {
    if listing != [] {
      var n := |listing| - 1;
      assert forall i :: 0 <= i < n ==> listing[..n][i] == listing[i];
      OtherFileKeepsLoad(dir, listing[..n], name, content);
      assert dir[name := content][listing[n]] == dir[listing[n]];
      assert LoadNext(dir[name := content], listing, LoadExisting(dir, listing[..n]))
        == LoadNext(dir, listing, LoadExisting(dir, listing[..n]));
    }
  }

  /** A store freshly loaded from a directory that the store itself wrote: every
      file is named after the id it holds, so the index mirrors the directory. */
  lemma {:induction false} LoadOfWrittenDirIsMirrored(dir: Dir, listing: seq<string>)
    requires IsListing(listing, dir)
    requires forall name :: name in dir ==>
      (dir[name].Object? && dir[name].chat.id.Some? && name == FileName(dir[name].chat.id.value))
    ensures LoadExisting(dir, listing).Ok?
    ensures Mirrored(Store(LoadExisting(dir, listing).value, dir))
    ensures forall name :: name in dir ==> dir[name].chat.id.value in LoadExisting(dir, listing).value
  {
    var r := LoadExisting(dir, listing);
    assert forall i :: 0 <= i < |listing| ==> dir[listing[i]] != NotObject;
    forall k | k in r.value
      ensures FileName(k) in dir && dir[FileName(k)] == Object(r.value[k])
    {
      var i :| 0 <= i < |listing| && KeptFile(dir, listing[i]) && dir[listing[i]].chat == r.value[k];
      assert r.value[k].id == Some(k);
    }
    forall name | name in dir
      ensures dir[name].chat.id.value in r.value
    {
      var i :| 0 <= i < |listing| && listing[i] == name;
      assert KeptFile(dir, listing[i]);
    }
  }

  // ---------------------------------------------------------------------------
  // Mutations

  /** The file of any other id is a different file. */
  lemma OtherFileNames(ids: set<string>, id: string)
    ensures forall k :: k in ids && k != id ==> FileName(k) != FileName(id)
  {
    forall k | k in ids && k != id ensures FileName(k) != FileName(id) {
      if FileName(k) == FileName(id) { FileNameInjective(k, id); }
    }
  }

  /** `save_chat`: writes the record to the file named after its id; a failed
      write is reported and swallowed. The model keeps the old file on a
      failure; a truncated or partial file is not represented. */
  function SaveChat(dir: Dir, chat: Chat, writeOk: bool): (d: Dir)
    requires chat.id.Some?
    ensures writeOk ==> FileName(chat.id.value) in d && d[FileName(chat.id.value)] == Object(chat)
    ensures !writeOk ==> d == dir
    ensures d.Keys <= dir.Keys + {FileName(chat.id.value)}
    ensures forall name :: name in dir ==> name in d
    ensures forall name :: name in dir && name != FileName(chat.id.value) ==> d[name] == dir[name]
  {
    if writeOk then dir[FileName(chat.id.value) := Object(chat)] else dir
  }

  /** `create_new_chat(model)` with the fresh id `id`. */
  function CreateNewChat(s: Store, model: string, id: string, createdAt: string, updatedAt: string, writeOk: bool)
    : (r: (Store, Chat))
    requires id !in s.chats
    ensures r.1.id == Some(id) && r.1.model == Some(model) && r.1.messages == []
    ensures r.1.createdAt == Some(createdAt) && r.1.lastUpdated == Some(updatedAt) && r.1.title == None
    ensures id in r.0.chats && r.0.chats[id] == r.1
    ensures r.0.chats.Keys == s.chats.Keys + {id}
    ensures forall k :: k in s.chats ==> r.0.chats[k] == s.chats[k]
    ensures r.0.dir == SaveChat(s.dir, r.1, writeOk)
    ensures Coherent(s.chats) ==> Coherent(r.0.chats)
    ensures Mirrored(s) && writeOk ==> Mirrored(r.0)
  {
    var chat := Chat(Some(id), Some(model), [], Some(createdAt), Some(updatedAt), None);
    var s' := Store(s.chats[id := chat], SaveChat(s.dir, chat, writeOk));
    OtherFileNames(s.chats.Keys, id);
    (s', chat)
  }

  /** `add_message(chat, role, message)`: appends one entry stamped `stamp`,
      sets `last_updated` to `updated`, files the record under its id (adding
      it back if it had been deleted) and saves it. */
  function AddMessage(s: Store, chat: Chat, role: string, content: string, stamp: string, updated: string,
                      writeOk: bool): (r: (Store, Chat))
    requires chat.id.Some?
    ensures |r.1.messages| == |chat.messages| + 1
    ensures r.1.messages[..|chat.messages|] == chat.messages
    ensures r.1.messages[|chat.messages|] == Message(role, content, stamp)
    ensures r.1.lastUpdated == Some(updated)
    ensures r.1.(messages := chat.messages, lastUpdated := chat.lastUpdated) == chat
    ensures r.0.chats.Keys == s.chats.Keys + {chat.id.value}
    ensures r.0.chats[chat.id.value] == r.1
    ensures forall k :: k in s.chats && k != chat.id.value ==> r.0.chats[k] == s.chats[k]
    ensures r.0.dir == SaveChat(s.dir, r.1, writeOk)
    ensures Coherent(s.chats) ==> Coherent(r.0.chats)
    ensures Mirrored(s) && writeOk ==> Mirrored(r.0)
  {
    var updatedChat := chat.(messages := chat.messages + [Message(role, content, stamp)], lastUpdated := Some(updated));
    var id := chat.id.value;
    var s' := Store(s.chats[id := updatedChat], SaveChat(s.dir, updatedChat, writeOk));
    OtherFileNames(s.chats.Keys, id);
    (s', updatedChat)
  }

  /** `delete_chat(chat_id)`: only an id in the index is acted on; it leaves
      the index and its file (if any) is removed. */
  function DeleteChat(s: Store, id: string): (r: Store)
    ensures id !in s.chats ==> r == s
    ensures id !in r.chats
    ensures id in s.chats ==> FileName(id) !in r.dir
    ensures r.chats.Keys == s.chats.Keys - {id}
    ensures forall k :: k in r.chats ==> r.chats[k] == s.chats[k]
    ensures r.dir.Keys <= s.dir.Keys
    ensures forall name :: name in s.dir && name != FileName(id) ==> name in r.dir && r.dir[name] == s.dir[name]
    ensures Coherent(s.chats) ==> Coherent(r.chats)
    ensures Mirrored(s) ==> Mirrored(r)
  {
    if id in s.chats then
      OtherFileNames(s.chats.Keys, id);
      Store(s.chats - {id}, s.dir - {FileName(id)})
    else
      s
  }

  // ---------------------------------------------------------------------------
  // Queries

  /** `get_chat_by_id(chat_id)`: the record, or `None` for an unknown id. */
  function GetChatById(s: Store, id: string): (r: Option<Chat>)
    ensures r.None? <==> id !in s.chats
    ensures r.Some? ==> r.value == s.chats[id]
  {
    if id in s.chats then Some(s.chats[id]) else None
  }

  /** The sort key of `list_chats`: `last_updated`, else `created_at`. */
  function ListingKey(c: Chat): Option<string> {
    if c.lastUpdated.Some? then c.lastUpdated else c.createdAt
  }

  /** The key used to order records whose `ListingKey` is present. */
  function OrderKey(c: Chat): string {
    ListingKey(c).GetOr("")
  }

  /** The records of `chats` in the dictionary order `order`. */
  function ValuesInOrder(chats: map<string, Chat>, order: seq<string>): (vs: seq<Chat>)
    requires forall i :: 0 <= i < |order| ==> order[i] in chats
    ensures |vs| == |order|
    ensures forall i :: 0 <= i < |order| ==> vs[i] == chats[order[i]]
  {
    if order == [] then [] else [chats[order[0]]] + ValuesInOrder(chats, order[1..])
  }

  /** `list_chats()` can sort the records: with two or more of them, each has
      a listing key (a lone record is never compared). */
  predicate Listable(s: Store) {
    |s.chats| < 2 || forall k :: k in s.chats ==> ListingKey(s.chats[k]).Some?
  }

  /** `list_chats()`: all records, most recent `ListingKey` first. Python compares
      a missing key (`None`) with nothing, so with two or more records one
      record lacking both timestamps makes the sort raise `TypeError`. */
  function ListChats(s: Store, order: seq<string>): (r: Result<seq<Chat>>)
    requires IsOrderOf(order, s.chats)
    ensures r.Err? <==> !Listable(s)
    ensures r.Err? ==> r.error == TypeError
    ensures r.Ok? ==> multiset(r.value) == multiset(ValuesInOrder(s.chats, order))
    ensures r.Ok? ==> |r.value| == |s.chats|
    ensures r.Ok? ==> forall k :: k in s.chats ==> s.chats[k] in r.value
    ensures r.Ok? ==> forall c :: c in r.value ==> c in s.chats.Values
    ensures r.Ok? ==> SortedDesc(r.value, OrderKey)
    ensures r.Ok? && Coherent(s.chats) ==> Distinct(r.value)
  {
    var vs := ValuesInOrder(s.chats, order);
    var sorted := SortDesc(vs, OrderKey);
    ListingCoversStore(s.chats, order, vs, sorted);
    if |order| >= 2 && exists i :: 0 <= i < |order| && ListingKey(s.chats[order[i]]).None? then
      Err(TypeError)
    else
      Ok(sorted)
  }

  /** A rearrangement of the records taken in dictionary order holds each
      record of the index once. */
  lemma ListingCoversStore(chats: map<string, Chat>, order: seq<string>, vs: seq<Chat>, sorted: seq<Chat>)
    requires IsOrderOf(order, chats)
    requires vs == ValuesInOrder(chats, order)
    requires multiset(sorted) == multiset(vs)
    ensures |order| == |chats| && |sorted| == |chats|
    ensures (exists i :: 0 <= i < |order| && ListingKey(chats[order[i]]).None?) <==>
      (exists k :: k in chats && ListingKey(chats[k]).None?)
    ensures forall k :: k in chats ==> chats[k] in sorted
    ensures forall c :: c in sorted ==> c in chats.Values
    ensures Coherent(chats) ==> Distinct(sorted)
  {
    OrderCard(chats, order);
    assert |sorted| == |multiset(sorted)| == |multiset(vs)| == |vs|;
    ListingHasEveryRecord(chats, order, vs, sorted);
    ListingHasOnlyRecords(chats, order, vs, sorted);
    if Coherent(chats) {
      assert forall i :: 0 <= i < |vs| ==> vs[i].id == Some(order[i]);
      DistinctPermutation(vs, sorted);
    }
  }

  lemma OrderCard(chats: map<string, Chat>, order: seq<string>)
    requires IsOrderOf(order, chats)
    ensures |order| == |chats|
  {
    DistinctCard(order);
    assert (set k | k in order) == chats.Keys;
  }

  lemma ListingHasEveryRecord(chats: map<string, Chat>, order: seq<string>, vs: seq<Chat>, sorted: seq<Chat>)
    requires IsOrderOf(order, chats)
    requires vs == ValuesInOrder(chats, order)
    requires multiset(sorted) == multiset(vs)
    ensures forall k :: k in chats ==> chats[k] in sorted
  {
    forall k | k in chats ensures chats[k] in sorted {
      var i :| 0 <= i < |order| && order[i] == k;
      assert vs[i] in multiset(vs);
    }
  }

  lemma ListingHasOnlyRecords(chats: map<string, Chat>, order: seq<string>, vs: seq<Chat>, sorted: seq<Chat>)
    requires IsOrderOf(order, chats)
    requires vs == ValuesInOrder(chats, order)
    requires multiset(sorted) == multiset(vs)
    ensures forall c :: c in sorted ==> c in chats.Values
  {
    forall c | c in sorted ensures c in chats.Values {
      assert c in multiset(vs);
      var i :| 0 <= i < |vs| && vs[i] == c;
      assert order[i] in chats;
    }
  }

  // ---------------------------------------------------------------------------
  // Properties relating several operations

  /** A created conversation can be fetched back by its id. */
  lemma CreateThenGet(s: Store, model: string, id: string, createdAt: string, updatedAt: string, writeOk: bool)
    requires id !in s.chats
    ensures var r := CreateNewChat(s, model, id, createdAt, updatedAt, writeOk);
      GetChatById(r.0, id) == Some(r.1) && r.1.model == Some(model) && r.1.messages == []
  {
  }

  /** After a delete the id is unknown; deleting again changes nothing. */
  lemma DeleteThenGet(s: Store, id: string)
    ensures GetChatById(DeleteChat(s, id), id) == None
    ensures DeleteChat(DeleteChat(s, id), id) == DeleteChat(s, id)
  {
  }

  /** Every record carries a listing key (`last_updated` or `created_at`). */
  predicate AllKeyed(s: Store) {
    forall k :: k in s.chats ==> ListingKey(s.chats[k]).Some?
  }

  /** The store's own operations keep every record keyed: creation sets both
      timestamps and `add_message` sets `last_updated`. */
  lemma OperationsKeepKeyed(s: Store, model: string, id: string, createdAt: string, updatedAt: string,
                            chat: Chat, role: string, content: string, stamp: string, writeOk: bool)
    requires AllKeyed(s)
    ensures id !in s.chats ==> AllKeyed(CreateNewChat(s, model, id, createdAt, updatedAt, writeOk).0)
    ensures chat.id.Some? ==> AllKeyed(AddMessage(s, chat, role, content, stamp, updatedAt, writeOk).0)
    ensures AllKeyed(DeleteChat(s, id))
  {
  }

  /** Creating a conversation in such a store leaves a store that can be listed. */
  lemma CreateKeepsListable(s: Store, model: string, id: string, createdAt: string, updatedAt: string, writeOk: bool)
    requires AllKeyed(s) && id !in s.chats
    ensures AllKeyed(CreateNewChat(s, model, id, createdAt, updatedAt, writeOk).0)
    ensures Listable(CreateNewChat(s, model, id, createdAt, updatedAt, writeOk).0)
  {
    var store := CreateNewChat(s, model, id, createdAt, updatedAt, writeOk).0;
    assert AllKeyed(store);
  }

  /** Appending to a stored conversation keeps a listable store listable: the
      ids stay the same and the updated record gains `last_updated`. */
  lemma AddMessageKeepsListable(s: Store, chat: Chat, role: string, content: string, stamp: string,
                                updated: string, writeOk: bool)
    requires chat.id.Some? && chat.id.value in s.chats && Listable(s)
    ensures Listable(AddMessage(s, chat, role, content, stamp, updated, writeOk).0)
  {
    var r := AddMessage(s, chat, role, content, stamp, updated, writeOk).0;
    assert r.chats.Keys == s.chats.Keys;
    assert |r.chats| == |s.chats|;
  }

  /** A store whose records all carry a listing key can always be listed. */
  lemma KeyedStoreLists(s: Store, order: seq<string>)
    requires IsOrderOf(order, s.chats)
    requires AllKeyed(s)
    ensures Listable(s)
    ensures ListChats(s, order).Ok?
  {
  }

  /** Appending to a conversation at a time later than every other record's
      listing key puts that conversation first in the listing. */
  lemma {:induction false} AddMessageMovesToFront(s: Store, chat: Chat, role: string, content: string, stamp: string,
                                                  updated: string, writeOk: bool, order: seq<string>)
    requires Coherent(s.chats) && chat.id.Some?
    requires AllKeyed(s)
    requires forall k :: k in s.chats && k != chat.id.value ==> !StrLe(updated, OrderKey(s.chats[k]))
    requires IsOrderOf(order, AddMessage(s, chat, role, content, stamp, updated, writeOk).0.chats)
    ensures var r := AddMessage(s, chat, role, content, stamp, updated, writeOk);
      ListChats(r.0, order).Ok? && ListChats(r.0, order).value[0] == r.1
  {
    var r := AddMessage(s, chat, role, content, stamp, updated, writeOk);
    var id := chat.id.value;
    assert AllKeyed(r.0);
    assert OrderKey(r.0.chats[id]) == updated;
    assert forall k :: k in r.0.chats && k != id ==> !StrLe(OrderKey(r.0.chats[id]), OrderKey(r.0.chats[k]));
    ListedFirst(r.0, id, order);
  }

  /** A keyed store lists first the record whose key is above every other's. */
  lemma ListedFirst(st: Store, id: string, order: seq<string>)
    requires IsOrderOf(order, st.chats) && AllKeyed(st) && id in st.chats
    requires forall k :: k in st.chats && k != id ==> !StrLe(OrderKey(st.chats[id]), OrderKey(st.chats[k]))
    ensures ListChats(st, order).Ok? && ListChats(st, order).value[0] == st.chats[id]
  {
    KeyedStoreLists(st, order);
    NewestFirst(st.chats, id, ListChats(st, order).value);
  }

  /** In a descending listing of all records, a record whose key is above
      every other record's comes first. */
  lemma NewestFirst(chats: map<string, Chat>, id: string, l: seq<Chat>)
    requires id in chats
    requires forall k :: k in chats && k != id ==> !StrLe(OrderKey(chats[id]), OrderKey(chats[k]))
    requires SortedDesc(l, OrderKey)
    requires chats[id] in l && forall c :: c in l ==> c in chats.Values
    ensures l[0] == chats[id]
  {
    forall y | y in l && y != chats[id]
      ensures !StrLe(OrderKey(chats[id]), OrderKey(y))
    {
      var k :| k in chats && chats[k] == y;
    }
    StrictMaximumFirst(l, OrderKey, chats[id]);
  }
}

=== FILE: markdown.dfy ===
/** `MarkdownParser.parse_markdown` of `chat_ui/utils/markdown_parser.py`.

    The source searches with `re.finditer` for one pattern of four
    alternatives: text between double asterisks, between single asterisks,
    between backticks, and between triple backticks. Here that search is an
    explicit left-to-right scanner: at each position the four alternatives
    are tried in order, each with a lazy (shortest) body; the first three
    bodies may not contain a newline, the last may contain anything. The first position where some
    alternative matches starts the next match, and the search resumes where
    that match ends.
 */
module Markdown {
  import opened Base
  import opened Text

  /** One typed piece of the parsed text. */
  datatype Segment =
    | Normal(content: string)
    | Bold(content: string)
    | Italic(content: string)
    | Code(content: string)
    | CodeBlock(content: string, language: string)

  /** The alternative of the pattern that produced a match. */
  datatype Alternative = BoldAlt | ItalicAlt | CodeAlt | BlockAlt

  /** A match ending (exclusively) at `end`. */
  datatype Match = Match(end: nat, alt: Alternative)

  /** A piece of the input: text between matches, or a match. */
  datatype Span = Plain(start: nat, end: nat) | Hit(start: nat, end: nat)

  /** No newline in `text[a..b]`. */
  predicate NoNewline(text: string, a: nat, b: nat)
    requires a <= b <= |text|
  {
    forall m :: a <= m < b ==> text[m] != '\n'
  }

  /** The lazy body followed by `delim`: the first position `k >= from` where
      `delim` occurs, provided no newline comes before it when the body may
      not cross lines. */
  function FindClose(text: string, from: nat, delim: string, crossLines: bool): (k: Option<nat>)
    requires from <= |text| && delim != []
    ensures k.Some? ==> from <= k.value && OccursAt(delim, text, k.value)
    ensures k.Some? ==> !crossLines ==> NoNewline(text, from, k.value)
    ensures k.Some? ==> forall j :: from <= j < k.value ==> !OccursAt(delim, text, j)
    ensures k.None? ==> forall j :: from <= j && OccursAt(delim, text, j) ==>
      !crossLines && !NoNewline(text, from, j)
    decreases |text| - from
  {
    if OccursAt(delim, text, from) then Some(from)
    else if from == |text| then None
    else if !crossLines && text[from] == '\n' then None
    else FindClose(text, from + 1, delim, crossLines)
  }

  /** A one-character string occurs exactly where that character stands. */
  lemma OccursChar(text: string, c: char, j: int)
    ensures OccursAt([c], text, j) <==> 0 <= j < |text| && text[j] == c
  {
    if 0 <= j < |text| {
      assert text[j..j + 1] == [text[j]];
    }
  }

  /** The first alternative (double asterisks) at `p`: the end of its match. */
  function BoldEnd(text: string, p: nat): (r: Option<nat>)
    requires p < |text|
    ensures r.Some? ==> p + 4 <= r.value <= |text|
    ensures r.Some? ==> text[p..p + 2] == "**" && text[r.value - 2..r.value] == "**"
    ensures r.Some? ==> NoNewline(text, p + 2, r.value - 2)
    ensures r.Some? ==> forall j :: p + 2 <= j < r.value - 2 ==> !OccursAt("**", text, j)
  {
    if !OccursAt("**", text, p) then None
    else
      match FindClose(text, p + 2, "**", false)
      case None => None
      case Some(k) => Some(k + 2)
  }

  /** The second and third alternatives (single asterisks, backticks) at `p`
      (with `c` the asterisk or the backtick): the end of the match. */
  function SingleEnd(text: string, p: nat, c: char): (r: Option<nat>)
    requires p < |text| && c != '\n'
    ensures r.Some? ==> text[p] == c && p + 2 <= r.value <= |text| && text[r.value - 1] == c
    ensures r.Some? ==> NoNewline(text, p, r.value)
    ensures r.Some? ==> forall j :: p + 1 <= j < r.value - 1 ==> text[j] != c
    ensures r.None? ==> text[p] != c || forall j :: p < j < |text| && text[j] == c ==> !NoNewline(text, p, j)
  {
    if text[p] != c then None
    else
      var k := FindClose(text, p + 1, [c], false);
      forall j | 0 <= j < |text| ensures OccursAt([c], text, j) <==> text[j] == c {
        OccursChar(text, c, j);
      }
      match k
      case None => None
      case Some(k) => Some(k + 1)
  }

  /** The fourth alternative (triple backticks, body across lines) at `p`:
      the end of the match. */
  function BlockEnd(text: string, p: nat): (r: Option<nat>)
    requires p < |text|
    ensures r.Some? ==> OccursAt("```", text, p) && p + 6 <= r.value <= |text|
  {
    if !OccursAt("```", text, p) then None
    else
      match FindClose(text, p + 3, "```", true)
      case None => None
      case Some(k) => Some(k + 3)
  }

  /** Wherever the fourth alternative could match, the third already does:
      the opening backtick is followed by a backtick, giving the empty inline
      code "``". */
  lemma BacktickShadowsBlock(text: string, p: nat)
    requires p < |text| && OccursAt("```", text, p)
    ensures SingleEnd(text, p, '`') == Some(p + 2)
  {
    assert text[p] == '`' && text[p + 1] == '`';
    OccursChar(text, '`', p + 1);
  }

  /** The match of the pattern that starts at `p`, if any; alternatives are
      tried in the order of the pattern. */
  function MatchAt(text: string, p: nat): (r: Option<Match>)
    requires p < |text|
    ensures r.Some? ==> p + 2 <= r.value.end <= |text|
    ensures r.Some? ==> r.value.alt != BlockAlt
    ensures r.Some? ==> NoNewline(text, p, r.value.end)
  {
    var bold := BoldEnd(text, p);
    var italic := SingleEnd(text, p, '*');
    var code := SingleEnd(text, p, '`');
    if bold.Some? then
      assert text[p] == text[p..p + 2][0] && text[p + 1] == text[p..p + 2][1];
      assert text[bold.value - 2] == text[bold.value - 2..bold.value][0];
      assert text[bold.value - 1] == text[bold.value - 2..bold.value][1];
      Some(Match(bold.value, BoldAlt))
    else if italic.Some? then
      Some(Match(italic.value, ItalicAlt))
    else if code.Some? then
      Some(Match(code.value, CodeAlt))
    else if BlockEnd(text, p).Some? then
      // the fourth alternative is never reached (`BacktickShadowsBlock`)
      BacktickShadowsBlock(text, p);
      assert false;
      None
    else
      None
  }

  /** What each alternative's match looks like: its delimiters, and a body in
      which the closing delimiter does not occur (the lazy quantifier stops at
      the first closer). */
  lemma MatchShape(text: string, p: nat)
    requires p < |text| && MatchAt(text, p).Some?
    ensures var m := MatchAt(text, p).value;
      match m.alt
      case BoldAlt =>
        && p + 4 <= m.end
        && text[p..p + 2] == "**" && text[m.end - 2..m.end] == "**"
        && forall j :: p + 2 <= j < m.end - 2 ==> !OccursAt("**", text, j)
      case ItalicAlt =>
        && text[p] == '*' && text[m.end - 1] == '*'
        && forall j :: p + 1 <= j < m.end - 1 ==> text[j] != '*'
      case CodeAlt =>
        && text[p] == '`' && text[m.end - 1] == '`'
        && forall j :: p + 1 <= j < m.end - 1 ==> text[j] != '`'
      case BlockAlt => false
  {
  }

  /** The alternatives are tried in order: at a `**` whose closing `**`
      follows on the same line, the bold alternative wins and ends at the
      first such closer; without such a closer the italic alternative takes
      the bare `**`. */
  lemma BoldBeforeItalic(text: string, p: nat)
    requires p + 2 <= |text| && text[p..p + 2] == "**"
    ensures forall k ::
      (p + 2 <= k && OccursAt("**", text, k) && NoNewline(text, p + 2, k)
        && forall j :: p + 2 <= j < k ==> !OccursAt("**", text, j))
      ==> MatchAt(text, p) == Some(Match(k + 2, BoldAlt))
    ensures (forall k :: p + 2 <= k && OccursAt("**", text, k) ==> !NoNewline(text, p + 2, k)) ==>
      MatchAt(text, p) == Some(Match(p + 2, ItalicAlt))
  {
    var close := FindClose(text, p + 2, "**", false);
    assert OccursAt("**", text, p);
    forall k | p + 2 <= k && OccursAt("**", text, k) && NoNewline(text, p + 2, k)
      && (forall j :: p + 2 <= j < k ==> !OccursAt("**", text, j))
      ensures MatchAt(text, p) == Some(Match(k + 2, BoldAlt))
    {
      FirstCloser(text, p + 2, k, close);
    }
    if forall k :: p + 2 <= k && OccursAt("**", text, k) ==> !NoNewline(text, p + 2, k) {
      NoCloserIsItalic(text, p);
    }
  }

  /** At `**` with no closing `**` on the same line the match is the bare `**`. */
  lemma NoCloserIsItalic(text: string, p: nat)
    requires p + 2 <= |text| && text[p..p + 2] == "**"
    requires forall k :: p + 2 <= k && OccursAt("**", text, k) ==> !NoNewline(text, p + 2, k)
    ensures MatchAt(text, p) == Some(Match(p + 2, ItalicAlt))
  {
    assert FindClose(text, p + 2, "**", false).None?;
    assert BoldEnd(text, p).None?;
    assert text[p] == '*' && text[p + 1] == '*' by {
      assert text[p..p + 2][0] == text[p] && text[p..p + 2][1] == text[p + 1];
    }
    StarPairIsItalic(text, p);
  }

  /** A closer that is the first occurrence and lies on the same line is the
      one `FindClose` finds. */
  lemma FirstCloser(text: string, from: nat, k: nat, close: Option<nat>)
    requires from <= k && OccursAt("**", text, k) && NoNewline(text, from, k)
    requires forall j :: from <= j < k ==> !OccursAt("**", text, j)
    requires close == FindClose(text, from, "**", false)
    ensures close == Some(k)
  {
  }

  /** Two asterisks whose bold alternative fails form an italic match of
      length two. */
  lemma StarPairIsItalic(text: string, p: nat)
    requires p + 2 <= |text| && text[p] == '*' && text[p + 1] == '*'
    requires BoldEnd(text, p).None?
    ensures MatchAt(text, p) == Some(Match(p + 2, ItalicAlt))
  {
    OccursChar(text, '*', p + 1);
    assert FindClose(text, p + 1, "*", false) == Some(p + 1);
  }

  /** The character at `p` occurs again at `j`, on the same line. */
  predicate Recurs(text: string, p: nat, j: nat)
    requires p < j < |text|
  {
    text[j] == text[p] && NoNewline(text, p, j)
  }

  /** The pattern matches at `p` exactly when `p` holds an asterisk or a
      backtick that occurs again later on the same line. */
  lemma MatchIffRecurs(text: string, p: nat)
    requires p < |text|
    ensures MatchAt(text, p).Some? <==>
      (text[p] == '*' || text[p] == '`') && exists j :: p < j < |text| && Recurs(text, p, j)
  {
    var m := MatchAt(text, p);
    if m.Some? {
      MatchShape(text, p);
      if m.value.alt == BoldAlt {
        assert text[p + 1] == text[p..p + 2][1];
        assert Recurs(text, p, p + 1);
      } else {
        assert Recurs(text, p, m.value.end - 1);
      }
    }
  }

  /** `re.finditer`'s next match: the first position at or after `from` where
      the pattern matches. */
  function FindMatch(text: string, from: nat): (r: Option<nat>)
    requires from <= |text|
    ensures r.Some? ==> from <= r.value < |text| && MatchAt(text, r.value).Some?
    ensures r.Some? ==> forall p :: from <= p < r.value ==> MatchAt(text, p).None?
    ensures r.None? ==> forall p :: from <= p < |text| ==> MatchAt(text, p).None?
    decreases |text| - from
  {
    if from == |text| then None
    else if MatchAt(text, from).Some? then Some(from)
    else FindMatch(text, from + 1)
  }

  // ---------------------------------------------------------------------------
  // Classification of a matched string

  /** Python's `m[k:-k]`: empty when the string is shorter than `2 * k`. */
  function Inner(m: string, k: nat): (r: string)
    ensures |m| >= 2 * k ==> r == m[k..|m| - k]
    ensures |m| < 2 * k ==> r == []
  {
    if |m| >= 2 * k then m[k..|m| - k] else []
  }

  predicate StartsWith(m: string, prefix: string) {
    prefix <= m
  }

  /** Index of the first newline of `s`, or `|s|` when there is none. */
  function FirstNewline(s: string): (i: nat)
    ensures i <= |s|
    ensures i < |s| ==> s[i] == '\n'
    ensures forall j :: 0 <= j < i ==> s[j] != '\n'
  {
    if s == [] || s[0] == '\n' then 0 else 1 + FirstNewline(s[1..])
  }

  /** The code-block branch: the first line of the body (stripped) is the
      language and the remaining lines are the code. `split('\n')` never
      yields an empty list, so the `'text'` default is never used. */
  function BlockSegment(m: string): Segment {
    var body := Inner(m, 3);
    var i := FirstNewline(body);
    if i < |body| then CodeBlock(body[i + 1..], Strip(body[..i]))
    else CodeBlock([], Strip(body))
  }

  /** The `if/elif` chain that types a matched string; a string that no branch
      accepts contributes no segment. */
  function Classify(m: string): seq<Segment> {
    if StartsWith(m, "**") && EndsWith(m, "**") then [Bold(Inner(m, 2))]
    else if StartsWith(m, "*") && EndsWith(m, "*") then [Italic(Inner(m, 1))]
    else if StartsWith(m, "`") && EndsWith(m, "`") && !StartsWith(m, "```") then [Code(Inner(m, 1))]
    else if StartsWith(m, "```") then [BlockSegment(m)]
    else []
  }

  lemma ClassifyBold(m: string)
    requires |m| >= 2 && m[..2] == "**" && m[|m| - 2..] == "**"
    ensures Classify(m) == [Bold(Inner(m, 2))]
  {
    assert StartsWith(m, "**") && EndsWith(m, "**");
  }

  lemma ClassifyItalic(m: string)
    requires |m| >= 3 && m[0] == '*' && m[1] != '*' && m[|m| - 1] == '*'
    ensures Classify(m) == [Italic(m[1..|m| - 1])]
  {
    assert m[..1] == [m[0]] && m[|m| - 1..] == [m[|m| - 1]];
    assert !StartsWith(m, "**");
  }

  lemma ClassifyCode(m: string)
    requires |m| >= 2 && m[0] == '`' && m[|m| - 1] == '`' && (|m| == 2 || m[1] != '`')
    ensures Classify(m) == [Code(m[1..|m| - 1])]
  {
    assert m[..1] == [m[0]] && m[|m| - 1..] == [m[|m| - 1]];
    assert !StartsWith(m, "*") && !StartsWith(m, "```");
  }

  /** A slice of a slice is a slice of the whole. */
  lemma SliceOfSlice(text: string, p: nat, e: nat, i: nat, j: nat)
    requires p <= e <= |text| && i <= j <= e - p
    ensures text[p..e][i..j] == text[p + i..p + j]
  {
    assert forall k :: 0 <= k < j - i ==> text[p..e][i..j][k] == text[p + i + k];
  }

  /** A slice opening and closing with `**` is bold without them. */
  lemma BoldSlice(text: string, p: nat, e: nat)
    requires p + 4 <= e <= |text| && text[p..p + 2] == "**" && text[e - 2..e] == "**"
    ensures Classify(text[p..e]) == [Bold(text[p + 2..e - 2])]
  {
    var m := text[p..e];
    assert m[..2] == text[p..p + 2] && m[|m| - 2..] == text[e - 2..e];
    ClassifyBold(m);
    SliceOfSlice(text, p, e, 2, |m| - 2);
  }

  /** A slice between single asterisks is italic without them, or empty bold
      when it is `**`. */
  lemma ItalicSlice(text: string, p: nat, e: nat)
    requires p + 2 <= e <= |text| && text[p] == '*' && text[e - 1] == '*'
    requires e > p + 2 ==> text[p + 1] != '*'
    ensures if e == p + 2 then Classify(text[p..e]) == [Bold([])]
      else Classify(text[p..e]) == [Italic(text[p + 1..e - 1])]
  {
    var m := text[p..e];
    if e == p + 2 {
      assert m == "**";
      ClassifyBold(m);
      assert Inner(m, 2) == [];
    } else {
      assert m[1] == text[p + 1];
      ClassifyItalic(m);
      SliceOfSlice(text, p, e, 1, |m| - 1);
    }
  }

  /** A slice between single backticks is inline code without them. */
  lemma CodeSlice(text: string, p: nat, e: nat)
    requires p + 2 <= e <= |text| && text[p] == '`' && text[e - 1] == '`'
    requires e > p + 2 ==> text[p + 1] != '`'
    ensures Classify(text[p..e]) == [Code(text[p + 1..e - 1])]
  {
    var m := text[p..e];
    if e > p + 2 {
      assert m[1] == text[p + 1];
    }
    ClassifyCode(m);
    SliceOfSlice(text, p, e, 1, |m| - 1);
  }

  /** What a match becomes: bold drops two characters at each end, italic and
      inline code one; a bare `**` (matched by the italic alternative) becomes
      an empty bold segment. */
  lemma MatchContent(text: string, p: nat)
    requires p < |text| && MatchAt(text, p).Some?
    ensures var e := MatchAt(text, p).value.end;
      match MatchAt(text, p).value.alt
      case BoldAlt => Classify(text[p..e]) == [Bold(text[p + 2..e - 2])]
      case ItalicAlt =>
        if e == p + 2 then Classify(text[p..e]) == [Bold([])]
        else Classify(text[p..e]) == [Italic(text[p + 1..e - 1])]
      case CodeAlt => Classify(text[p..e]) == [Code(text[p + 1..e - 1])]
      case BlockAlt => false
  {
    var e := MatchAt(text, p).value.end;
    if BoldEnd(text, p).Some? {
      BoldSlice(text, p, e);
    } else if SingleEnd(text, p, '*').Some? {
      ItalicSlice(text, p, e);
    } else {
      CodeSlice(text, p, e);
    }
  }

  /** A match becomes exactly one segment, which is neither normal text nor a
      code block. */
  lemma MatchSegment(text: string, p: nat)
    requires p < |text| && MatchAt(text, p).Some?
    ensures var c := Classify(text[p..MatchAt(text, p).value.end]);
      |c| == 1 && !c[0].Normal? && !c[0].CodeBlock?
  {
    MatchContent(text, p);
  }

  /** Normal segments carry text and no code block is produced. */
  predicate WellFormed(r: seq<Segment>) {
    forall seg :: seg in r ==> !seg.CodeBlock? && (seg.Normal? ==> seg.content != [])
  }

  /** The loop of `parse_markdown`, resuming at `lastEnd`. */
  function Parse(text: string, lastEnd: nat): (r: seq<Segment>)
    requires lastEnd <= |text|
    ensures WellFormed(r)
    decreases |text| - lastEnd
  {
    match FindMatch(text, lastEnd)
    case None =>
      if lastEnd < |text| then [Normal(text[lastEnd..])] else []
    case Some(s) =>
      var e := MatchEnd(text, s);
      var rest := Parse(text, e);
      ParseWellFormed(text, lastEnd, s, rest);
      Before(text, lastEnd, s) + Classify(text[s..e]) + rest
  }

  /** One step of the loop keeps the segments well formed. */
  lemma ParseWellFormed(text: string, from: nat, s: nat, rest: seq<Segment>)
    requires from <= s < |text| && MatchAt(text, s).Some? && WellFormed(rest)
    ensures WellFormed(Before(text, from, s) + Classify(text[s..MatchEnd(text, s)]) + rest)
  {
    MatchSegment(text, s);
    BeforeWellFormed(text, from, s);
    ConcatWellFormed(Before(text, from, s), Classify(text[s..MatchEnd(text, s)]), rest);
  }

  lemma BeforeWellFormed(text: string, from: nat, s: nat)
    requires from <= s <= |text|
    ensures WellFormed(Before(text, from, s))
  {
  }

  /** A well-formed prefix, one styled segment and a well-formed rest. */
  lemma ConcatWellFormed(before: seq<Segment>, c: seq<Segment>, rest: seq<Segment>)
    requires WellFormed(before) && WellFormed(rest)
    requires |c| == 1 && !c[0].Normal? && !c[0].CodeBlock?
    ensures WellFormed(before + c + rest)
  {
  }

  /** `MarkdownParser.parse_markdown(text)`. */
  function ParseMarkdown(text: string): (r: seq<Segment>)
    ensures text == [] ==> r == []
    ensures WellFormed(r)
  {
    Parse(text, 0)
  }

  // ---------------------------------------------------------------------------
  // The spans the parse cuts the input into

  /** `spans` cut `[a, b)` into consecutive, non-empty, non-overlapping pieces. */
  predicate Tiling(spans: seq<Span>, a: nat, b: nat)
    decreases |spans|
  {
    if spans == [] then a == b
    else spans[0].start == a && spans[0].start < spans[0].end <= b && Tiling(spans[1..], spans[0].end, b)
  }

  /** No match starts inside a plain span. */
  predicate PlainsClear(text: string, spans: seq<Span>) {
    forall i :: 0 <= i < |spans| && spans[i].Plain? ==>
      forall p :: spans[i].start <= p < spans[i].end && p < |text| ==> MatchAt(text, p).None?
  }

  /** Every match span is the pattern's match at its start. */
  predicate HitsMatch(text: string, spans: seq<Span>) {
    forall i :: 0 <= i < |spans| && spans[i].Hit? ==>
      spans[i].start < |text| && MatchAt(text, spans[i].start).Some? && MatchAt(text, spans[i].start).value.end == spans[i].end
  }

  /** A plain span is always followed by a match span: no two plain spans
      are adjacent, so each one holds all the text up to the next match. */
  predicate PlainsMaximal(spans: seq<Span>) {
    forall i :: 0 <= i < |spans| - 1 && spans[i].Plain? ==> spans[i + 1].Hit?
  }

  /** The pieces the parse cuts `text[from..]` into. Text between matches is
      never empty, is one piece, and no match starts inside it; every match is
      the pattern's match at its start. */
  function Spans(text: string, from: nat): (r: seq<Span>)
    requires from <= |text|
    ensures Tiling(r, from, |text|)
    ensures PlainsClear(text, r)
    ensures HitsMatch(text, r)
    ensures PlainsMaximal(r)
    decreases |text| - from
  {
    match FindMatch(text, from)
    case None =>
      if from < |text| then [Plain(from, |text|)] else []
    case Some(s) =>
      var e := MatchEnd(text, s);
      var rest := Spans(text, e);
      SpansKeep(text, from, s, rest);
      MaximalKeeps(from, s, e, rest);
      Lead(from, s) + [Hit(s, e)] + rest
  }

  /** Putting the text before a match, then the match, in front of maximal
      spans keeps them maximal. */
  lemma MaximalKeeps(from: nat, s: nat, e: nat, rest: seq<Span>)
    requires PlainsMaximal(rest)
    ensures PlainsMaximal(Lead(from, s) + [Hit(s, e)] + rest)
  {
    var h := [Hit(s, e)] + rest;
    assert forall i :: 1 <= i < |h| ==> h[i] == rest[i - 1];
    var r := Lead(from, s) + h;
    assert forall i :: |Lead(from, s)| <= i < |r| ==> r[i] == h[i - |Lead(from, s)|];
  }

  /** One step of the loop keeps the spans a tiling of clear plain text and
      matches. */
  lemma SpansKeep(text: string, from: nat, s: nat, rest: seq<Span>)
    requires from <= |text| && FindMatch(text, from) == Some(s)
    requires Tiling(rest, MatchEnd(text, s), |text|) && PlainsClear(text, rest) && HitsMatch(text, rest)
    ensures var r := Lead(from, s) + [Hit(s, MatchEnd(text, s))] + rest;
      Tiling(r, from, |text|) && PlainsClear(text, r) && HitsMatch(text, r)
  {
    var e := MatchEnd(text, s);
    var h := [Hit(s, e)] + rest;
    ConsKeeps(text, Hit(s, e), rest, e);
    assert Lead(from, s) + [Hit(s, e)] + rest == Lead(from, s) + h;
    if s > from {
      ConsKeeps(text, Plain(from, s), h, s);
    }
  }

  /** Putting one more span in front. */
  lemma ConsKeeps(text: string, x: Span, rest: seq<Span>, b: nat)
    requires x.start < x.end == b
    requires x.Plain? ==> forall p :: x.start <= p < x.end && p < |text| ==> MatchAt(text, p).None?
    requires x.Hit? ==> x.start < |text| && MatchAt(text, x.start).Some? && MatchAt(text, x.start).value.end == x.end
    requires Tiling(rest, b, |text|) && PlainsClear(text, rest) && HitsMatch(text, rest)
    ensures Tiling([x] + rest, x.start, |text|) && PlainsClear(text, [x] + rest) && HitsMatch(text, [x] + rest)
  {
    TilingBounds(rest, b, |text|);
    var r := [x] + rest;
    assert r[1..] == rest;
    assert forall i :: 1 <= i < |r| ==> r[i] == rest[i - 1];
  }

  /** Every span lies in the input. */
  predicate InBounds(text: string, spans: seq<Span>) {
    forall i :: 0 <= i < |spans| ==> spans[i].start <= spans[i].end <= |text|
  }

  /** The segments a sequence of spans stands for. */
  function Render(text: string, spans: seq<Span>): seq<Segment>
    requires InBounds(text, spans)
  {
    if spans == [] then []
    else
      var sp := spans[0];
      (if sp.Plain? then [Normal(text[sp.start..sp.end])] else Classify(text[sp.start..sp.end]))
      + Render(text, spans[1..])
  }

  /** The text a sequence of spans stands for. */
  function Covered(text: string, spans: seq<Span>): string
    requires InBounds(text, spans)
  {
    if spans == [] then [] else text[spans[0].start..spans[0].end] + Covered(text, spans[1..])
  }

  lemma {:induction false} TilingBounds(spans: seq<Span>, a: nat, b: nat)
    requires Tiling(spans, a, b)
    ensures a <= b
    ensures forall i :: 0 <= i < |spans| ==> a <= spans[i].start < spans[i].end <= b
    decreases |spans|
  {
    if spans != [] {
      TilingBounds(spans[1..], spans[0].end, b);
      assert forall i :: 1 <= i < |spans| ==> spans[i] == spans[1..][i - 1];
    }
  }

  /** The pieces, put back together, are the input: nothing is lost,
      duplicated or reordered. */
  lemma {:induction false} TilingCovers(text: string, spans: seq<Span>, a: nat)
    requires Tiling(spans, a, |text|)
    ensures InBounds(text, spans)
    ensures Covered(text, spans) == text[a..]
    decreases |spans|
  {
    TilingBounds(spans, a, |text|);
    if spans != [] {
      TilingCovers(text, spans[1..], spans[0].end);
      assert text[a..] == text[a..spans[0].end] + text[spans[0].end..];
    }
  }

  /** Every span of the parse lies in the input and they concatenate to it. */
  lemma SpansCoverInput(text: string)
    ensures InBounds(text, Spans(text, 0))
    ensures Covered(text, Spans(text, 0)) == text
  {
    TilingCovers(text, Spans(text, 0), 0);
  }

  /** Where the parse resumes after the match at `s`. */
  function MatchEnd(text: string, s: nat): (e: nat)
    requires s < |text| && MatchAt(text, s).Some?
    ensures s < e <= |text|
  {
    MatchAt(text, s).value.end
  }

  /** The text before the match at `s`, if any, as a normal segment. */
  function Before(text: string, from: nat, s: nat): seq<Segment>
    requires from <= s <= |text|
  {
    if s > from then [Normal(text[from..s])] else []
  }

  /** The plain span before the match at `s`, if any. */
  function Lead(from: nat, s: nat): seq<Span> {
    if s > from then [Plain(from, s)] else []
  }

  lemma ParseStep(text: string, from: nat, s: nat)
    requires from <= |text| && FindMatch(text, from) == Some(s)
    ensures Parse(text, from) == Before(text, from, s) + Classify(text[s..MatchEnd(text, s)]) + Parse(text, MatchEnd(text, s))
  {
  }

  lemma SpansStep(text: string, from: nat, s: nat)
    requires from <= |text| && FindMatch(text, from) == Some(s)
    ensures Spans(text, from) == Lead(from, s) + [Hit(s, MatchEnd(text, s))] + Spans(text, MatchEnd(text, s))
  {
  }

  lemma NoMatchRenders(text: string, from: nat)
    requires from <= |text| && FindMatch(text, from).None?
    ensures InBounds(text, Spans(text, from))
    ensures Parse(text, from) == Render(text, Spans(text, from))
  {
    var spans := Spans(text, from);
    TilingBounds(spans, from, |text|);
    if from < |text| {
      assert spans == [Plain(from, |text|)];
      assert text[from..] == text[from..|text|];
      assert Render(text, spans) == [Normal(text[from..])] + Render(text, []);
    }
  }

  /** Rendering a match span followed by the rest. */
  lemma HitRenders(text: string, s: nat, e: nat, rest: seq<Span>)
    requires s <= e <= |text| && InBounds(text, rest)
    ensures InBounds(text, [Hit(s, e)] + rest)
    ensures Render(text, [Hit(s, e)] + rest) == Classify(text[s..e]) + Render(text, rest)
  {
    var h := [Hit(s, e)] + rest;
    assert h[0] == Hit(s, e) && h[1..] == rest;
  }

  /** Rendering the plain text before a match, then what follows. */
  lemma LeadRenders(text: string, from: nat, s: nat, h: seq<Span>)
    requires from <= s <= |text| && InBounds(text, h)
    ensures InBounds(text, Lead(from, s) + h)
    ensures Render(text, Lead(from, s) + h) == Before(text, from, s) + Render(text, h)
  {
    if s > from {
      var full := [Plain(from, s)] + h;
      assert full[0] == Plain(from, s) && full[1..] == h;
    } else {
      assert Lead(from, s) + h == h;
    }
  }

  /** Rendering the text before a match, the match, and the rest. */
  lemma StepRenders(text: string, from: nat, s: nat, e: nat, rest: seq<Span>)
    requires from <= s <= e <= |text| && InBounds(text, rest)
    ensures InBounds(text, Lead(from, s) + [Hit(s, e)] + rest)
    ensures Render(text, Lead(from, s) + [Hit(s, e)] + rest)
      == Before(text, from, s) + Classify(text[s..e]) + Render(text, rest)
  {
    var h := [Hit(s, e)] + rest;
    HitRenders(text, s, e, rest);
    LeadRenders(text, from, s, h);
    assert Lead(from, s) + [Hit(s, e)] + rest == Lead(from, s) + h;
    Regroup(Before(text, from, s), Classify(text[s..e]), Render(text, rest));
  }

  lemma Regroup<T>(a: seq<T>, b: seq<T>, c: seq<T>)
    ensures a + (b + c) == a + b + c
  {
  }

  /** The parse is the rendering of its spans: each normal segment is the
      verbatim slice of the input between two consecutive matches (or an end
      of the input), and each other segment is the classification of its match. */
  lemma {:induction false} ParseRendersSpans(text: string, from: nat)
    requires from <= |text|
    ensures InBounds(text, Spans(text, from))
    ensures PlainsMaximal(Spans(text, from)) && PlainsClear(text, Spans(text, from))
    ensures Parse(text, from) == Render(text, Spans(text, from))
    decreases |text| - from
  {
    var found := FindMatch(text, from);
    if found.None? {
      NoMatchRenders(text, from);
    } else {
      var s := found.value;
      var e := MatchEnd(text, s);
      ParseRendersSpans(text, e);
      ParseStep(text, from, s);
      SpansStep(text, from, s);
      StepRenders(text, from, s, e, Spans(text, e));
    }
  }

  /** Empty input yields no segment. */
  lemma EmptyInput()
    ensures ParseMarkdown("") == []
  {
  }

  /** Text without `*` and without backtick is one normal segment, verbatim. */
  lemma PlainText(text: string)
    requires text != []
    requires forall i :: 0 <= i < |text| ==> text[i] != '*' && text[i] != '`'
    ensures ParseMarkdown(text) == [Normal(text)]
  {
    forall p | 0 <= p < |text|
      ensures MatchAt(text, p).None?
    {
      MatchIffRecurs(text, p);
    }
    assert FindMatch(text, 0).None?;
    assert text[0..] == text;
  }
}

=== FILE: palette.dfy ===
/** The search filter of the command palette (`CommandPalette.filter_commands`).

    The palette holds an ordered table from category name to an ordered list
    of `(label, action)` pairs. Typing in the search box keeps, in each
    category, the commands whose lower-cased label (`caption`) contains the
    lower-cased search text, and drops the categories left without a command. Actions are
    opaque values of any type.
 */
module Palette {
  import opened Text

  datatype Command<A> = Command(caption: string, action: A)

  datatype Category<A> = Category(name: string, commands: seq<Command<A>>)

  /** A command is shown for the (already lower-cased) term when its
      lower-cased label contains the term. */
  predicate Shown<A>(term: string, c: Command<A>) {
    Contains(term, Lower(c.caption))
  }

  /** `a` is `b` with some elements left out, the rest in their order. */
  predicate SubSeq<T(==)>(a: seq<T>, b: seq<T>)
    decreases |b|
  {
    if a == [] then true
    else if b == [] then false
    else (a[0] == b[0] && SubSeq(a[1..], b[1..])) || SubSeq(a, b[1..])
  }

  /** Every category of `r` is a category of `cats` with the same name, taken
      in order, whose commands are a subsequence of the original's. */
  predicate Refines<A(==)>(r: seq<Category<A>>, cats: seq<Category<A>>)
    decreases |cats|
  {
    if r == [] then true
    else if cats == [] then false
    else
      || (r[0].name == cats[0].name && SubSeq(r[0].commands, cats[0].commands) && Refines(r[1..], cats[1..]))
      || Refines(r, cats[1..])
  }

  /** The list comprehension of one category: its shown commands, in order. */
  function ShownCommands<A(==,!new)>(term: string, cmds: seq<Command<A>>): (r: seq<Command<A>>)
    ensures forall c :: c in r <==> c in cmds && Shown(term, c)
    ensures SubSeq(r, cmds)
  {
    if cmds == [] then []
    else
      var rest := ShownCommands(term, cmds[1..]);
      assert forall c :: c in cmds <==> c == cmds[0] || c in cmds[1..];
      if Shown(term, cmds[0]) then [cmds[0]] + rest
      else
        SubSeqSkip(rest, cmds);
        rest
  }

  /** A shown command is kept as often as it occurs in the category, and a
      hidden one not at all. */
  lemma {:induction false} ShownCounts<A(!new)>(term: string, cmds: seq<Command<A>>)
    ensures forall c ::
      multiset(ShownCommands(term, cmds))[c] == if Shown(term, c) then multiset(cmds)[c] else 0
    decreases |cmds|
  {
    if cmds != [] {
      ShownCounts(term, cmds[1..]);
      assert cmds == [cmds[0]] + cmds[1..];
      assert multiset(cmds) == multiset([cmds[0]]) + multiset(cmds[1..]);
    }
  }

  /** Leaving out the head of `b` keeps every subsequence of its tail. */
  lemma SubSeqSkip<T>(a: seq<T>, b: seq<T>)
    requires b != [] && SubSeq(a, b[1..])
    ensures SubSeq(a, b)
  {
  }

  /** The loop over the categories, with the term already lower-cased. */
  function FilterTerm<A(==,!new)>(term: string, cats: seq<Category<A>>): (r: seq<Category<A>>)
    ensures forall k :: 0 <= k < |r| ==> r[k].commands != []
    ensures forall k, c :: 0 <= k < |r| && c in r[k].commands ==> Shown(term, c)
    ensures Refines(r, cats)
    ensures forall i, c :: 0 <= i < |cats| && c in cats[i].commands && Shown(term, c) ==>
      exists k :: 0 <= k < |r| && r[k].name == cats[i].name && c in r[k].commands
  {
    if cats == [] then []
    else
      var kept := ShownCommands(term, cats[0].commands);
      var rest := FilterTerm(term, cats[1..]);
      assert forall i :: 1 <= i < |cats| ==> cats[i] == cats[1..][i - 1];
      if kept != [] then
        var r := [Category(cats[0].name, kept)] + rest;
        assert r[1..] == rest;
        assert forall k :: 1 <= k < |r| ==> r[k] == rest[k - 1];
        forall i, c | 0 <= i < |cats| && c in cats[i].commands && Shown(term, c)
          ensures exists k :: 0 <= k < |r| && r[k].name == cats[i].name && c in r[k].commands
        {
          if i == 0 {
            assert r[0].name == cats[i].name && c in r[0].commands;
          } else {
            var k :| 0 <= k < |rest| && rest[k].name == cats[1..][i - 1].name && c in rest[k].commands;
            assert r[k + 1] == rest[k];
          }
        }
        r
      else
        forall i, c | 1 <= i < |cats| && c in cats[i].commands && Shown(term, c)
          ensures exists k :: 0 <= k < |rest| && rest[k].name == cats[i].name && c in rest[k].commands
        {
          assert cats[1..][i - 1] == cats[i];
        }
        rest
  }

  /** `filter_commands`: the categories and commands the palette shows for
      the search text `search`. */
  function FilterCommands<A(==,!new)>(cats: seq<Category<A>>, search: string): (r: seq<Category<A>>)
    ensures forall k :: 0 <= k < |r| ==> r[k].commands != []
    ensures forall k, c :: 0 <= k < |r| && c in r[k].commands ==> Shown(Lower(search), c)
    ensures Refines(r, cats)
    ensures forall i, c :: 0 <= i < |cats| && c in cats[i].commands && Shown(Lower(search), c) ==>
      exists k :: 0 <= k < |r| && r[k].name == cats[i].name && c in r[k].commands
  {
    FilterTerm(Lower(search), cats)
  }

  // ---------------------------------------------------------------------------
  // Properties

  /** A subsequence only holds elements of the original. */
  lemma {:induction false} SubSeqMembers<T>(a: seq<T>, b: seq<T>)
    requires SubSeq(a, b)
    ensures forall x :: x in a ==> x in b
    decreases |b|
  {
    if a != [] && b != [] {
      if a[0] == b[0] && SubSeq(a[1..], b[1..]) {
        SubSeqMembers(a[1..], b[1..]);
        assert forall x :: x in a ==> x == a[0] || x in a[1..];
      } else {
        SubSeqMembers(a, b[1..]);
      }
    }
  }

  /** Nothing is invented or moved: every shown command belongs, in the
      original table, to a category of the same name. */
  lemma {:induction false} RefinesMembers<A>(r: seq<Category<A>>, cats: seq<Category<A>>)
    requires Refines(r, cats)
    ensures forall k, c :: 0 <= k < |r| && c in r[k].commands ==>
      exists i :: 0 <= i < |cats| && cats[i].name == r[k].name && c in cats[i].commands
    decreases |cats|
  {
    if r != [] && cats != [] {
      if r[0].name == cats[0].name && SubSeq(r[0].commands, cats[0].commands) && Refines(r[1..], cats[1..]) {
        RefinesMembers(r[1..], cats[1..]);
        SubSeqMembers(r[0].commands, cats[0].commands);
        forall k, c | 0 <= k < |r| && c in r[k].commands
          ensures exists i :: 0 <= i < |cats| && cats[i].name == r[k].name && c in cats[i].commands
        {
          if k == 0 {
            assert cats[0].name == r[0].name && c in cats[0].commands;
          } else {
            assert r[k] == r[1..][k - 1];
            var i :| 0 <= i < |cats[1..]| && cats[1..][i].name == r[1..][k - 1].name && c in cats[1..][i].commands;
            assert cats[i + 1] == cats[1..][i];
          }
        }
      } else {
        RefinesMembers(r, cats[1..]);
        forall k, c | 0 <= k < |r| && c in r[k].commands
          ensures exists i :: 0 <= i < |cats| && cats[i].name == r[k].name && c in cats[i].commands
        {
          var i :| 0 <= i < |cats[1..]| && cats[1..][i].name == r[k].name && c in cats[1..][i].commands;
          assert cats[i + 1] == cats[1..][i];
        }
      }
    }
  }

  /** The categories that have at least one command, in order. */
  function NonEmpty<A>(cats: seq<Category<A>>): seq<Category<A>> {
    if cats == [] then []
    else if cats[0].commands == [] then NonEmpty(cats[1..])
    else [cats[0]] + NonEmpty(cats[1..])
  }

  /** With nothing typed every category that has a command is shown whole. */
  lemma {:induction false} EmptySearchShowsAll<A(!new)>(cats: seq<Category<A>>)
    ensures FilterCommands(cats, "") == NonEmpty(cats)
    decreases |cats|
  {
    if cats != [] {
      EmptyTermKeeps(cats[0].commands);
      EmptySearchShowsAll(cats[1..]);
    }
  }

  /** The empty term occurs in every label, so a category keeps all commands. */
  lemma {:induction false} EmptyTermKeeps<A(!new)>(cmds: seq<Command<A>>)
    ensures ShownCommands("", cmds) == cmds
    decreases |cmds|
  {
    if cmds != [] {
      assert OccursAt("", Lower(cmds[0].caption), 0);
      EmptyTermKeeps(cmds[1..]);
    }
  }

  /** Only the lower-cased search text matters: searching for its lower-cased
      form shows the same thing. */
  lemma SearchCaseIrrelevant<A(!new)>(cats: seq<Category<A>>, search: string)
    ensures FilterCommands(cats, Lower(search)) == FilterCommands(cats, search)
  {
    LowerIdempotent(search);
  }
}

=== FILE: records.dfy ===
/** Conversation records as both stores hold them, and the directory of JSON
    files they are mirrored to.

    A record is a JSON object; each key a file may lack is an `Option`
    (`None` standing for an absent key). Serialisation is the identity: a
    file holds either text that is not JSON, a JSON value that is not an
    object, or an object, which is a `Chat`.
 */
module Records {
  import opened Base
  import opened Text

  /** One `{role, content, timestamp}` entry of a conversation. */
  datatype Message = Message(role: string, content: string, timestamp: string)

  /** One conversation record. */
  datatype Chat = Chat(
    id: Option<string>,
    model: Option<string>,
    messages: seq<Message>,
    createdAt: Option<string>,
    lastUpdated: Option<string>,
    title: Option<string>)

  /** The content of one file, as `json.load` sees it. */
  datatype Json = Unparsable | NotObject | Object(chat: Chat)

  /** The conversations directory: file name to content. */
  type Dir = map<string, Json>

  const Suffix: string := ".json"

  /** The name of the file holding the conversation with this id. */
  function FileName(id: string): (name: string)
    ensures EndsWith(name, Suffix)
    ensures |name| == |id| + |Suffix| && name[..|id|] == id
  {
    id + Suffix
  }

  /** Distinct ids never share a file. */
  lemma FileNameInjective(a: string, b: string)
    requires FileName(a) == FileName(b)
    ensures a == b
  {
    assert a == FileName(a)[..|FileName(a)| - |Suffix|];
    assert b == FileName(b)[..|FileName(b)| - |Suffix|];
  }

  /** The files both stores read: those whose name ends in `.json`. */
  predicate IsJsonName(name: string) {
    EndsWith(name, Suffix)
  }

  /** `listing` names every file of `dir` exactly once, in some order
      (what `os.listdir` returns). */
  predicate IsListing(listing: seq<string>, dir: Dir) {
    && (forall i, j :: 0 <= i < j < |listing| ==> listing[i] != listing[j])
    && (forall name :: name in dir ==> name in listing)
    && (forall i :: 0 <= i < |listing| ==> listing[i] in dir)
  }
}

=== FILE: sorting.dfy ===
/** Python's `sorted(xs, key=..., reverse=True)` over string keys, as a stable
    insertion sort. Both conversation stores list their records this way. */
module Sorting {
  import opened Text

  /** Every element's key is at least the key of every element after it. */
  predicate SortedDesc<T>(s: seq<T>, key: T -> string) {
    forall i, j :: 0 <= i < j < |s| ==> StrLe(key(s[j]), key(s[i]))
  }

  /** Places `x` before the first element whose key is not above its own. */
  function Insert<T>(x: T, s: seq<T>, key: T -> string): (r: seq<T>)
    requires SortedDesc(s, key)
    ensures multiset(r) == multiset(s) + multiset{x}
    ensures SortedDesc(r, key)
  {
    if s == [] then [x]
    else if StrLe(key(s[0]), key(x)) then
      HeadBelow(x, s, key);
      ConsSorted(x, s, key);
      [x] + s
    else
      StrLeTotal(key(x), key(s[0]));
      var t := Insert(x, s[1..], key);
      TailBelow(x, s, key, t);
      ConsSorted(s[0], t, key);
      assert s == [s[0]] + s[1..];
      [s[0]] + t
  }

  /** Putting `x` in front keeps a descending order when no key exceeds its own. */
  lemma ConsSorted<T>(x: T, s: seq<T>, key: T -> string)
    requires SortedDesc(s, key)
    requires forall j :: 0 <= j < |s| ==> StrLe(key(s[j]), key(x))
    ensures SortedDesc([x] + s, key)
  {
    var r := [x] + s;
    assert forall i :: 1 <= i < |r| ==> r[i] == s[i - 1];
  }

  /** When the first key is at most `x`'s, every key is. */
  lemma HeadBelow<T>(x: T, s: seq<T>, key: T -> string)
    requires SortedDesc(s, key) && s != [] && StrLe(key(s[0]), key(x))
    ensures forall j :: 0 <= j < |s| ==> StrLe(key(s[j]), key(x))
  {
    forall j | 0 <= j < |s|
      ensures StrLe(key(s[j]), key(x))
    {
      if j > 0 { StrLeTransitive(key(s[j]), key(s[0]), key(x)); }
    }
  }

  /** `x` inserted into the tail of `s`, with `x`'s key at most the head's:
      no key of the result exceeds the head's. */
  lemma TailBelow<T>(x: T, s: seq<T>, key: T -> string, t: seq<T>)
    requires SortedDesc(s, key) && s != [] && StrLe(key(x), key(s[0]))
    requires multiset(t) == multiset(s[1..]) + multiset{x}
    ensures forall j :: 0 <= j < |t| ==> StrLe(key(t[j]), key(s[0]))
  {
    forall j | 0 <= j < |t|
      ensures StrLe(key(t[j]), key(s[0]))
    {
      assert t[j] in multiset(t);
      if t[j] != x {
        assert t[j] in multiset(s[1..]);
        var k :| 0 <= k < |s[1..]| && s[1..][k] == t[j];
        assert s[k + 1] == t[j];
      }
    }
  }

  /** The elements of `s` ordered by descending key; equal keys keep their order. */
  function SortDesc<T>(s: seq<T>, key: T -> string): (r: seq<T>)
    ensures multiset(r) == multiset(s)
    ensures |r| == |s|
    ensures SortedDesc(r, key)
  {
    if s == [] then []
    else
      assert s == [s[0]] + s[1..];
      Insert(s[0], SortDesc(s[1..], key), key)
  }

  /** In a descending order, an element whose key is strictly above every other
      element's key comes first. */
  lemma {:induction false} StrictMaximumFirst<T>(r: seq<T>, key: T -> string, x: T)
    requires SortedDesc(r, key)
    requires x in r
    requires forall y :: y in r && y != x ==> !StrLe(key(x), key(y))
    ensures r[0] == x
  {
    var i :| 0 <= i < |r| && r[i] == x;
    if i > 0 {
      assert StrLe(key(r[i]), key(r[0]));
    }
  }

  /** No element occurs twice. */
  predicate Distinct<T(==)>(s: seq<T>) {
    forall i, j :: 0 <= i < j < |s| ==> s[i] != s[j]
  }

  lemma {:induction false} DistinctCount<T>(a: seq<T>, x: T)
    requires Distinct(a)
    ensures multiset(a)[x] <= 1
  {
    if a != [] {
      assert a == [a[0]] + a[1..];
      assert Distinct(a[1..]) by {
        forall i, j | 0 <= i < j < |a[1..]| ensures a[1..][i] != a[1..][j] {
          assert a[1..][i] == a[i + 1] && a[1..][j] == a[j + 1];
        }
      }
      DistinctCount(a[1..], x);
      if x == a[0] {
        assert x !in a[1..];
      }
    }
  }

  /** A rearrangement of a sequence without repetitions has none either. */
  lemma DistinctPermutation<T>(a: seq<T>, b: seq<T>)
    requires Distinct(a)
    requires multiset(a) == multiset(b)
    ensures Distinct(b)
  {
    forall i, j | 0 <= i < j < |b| ensures b[i] != b[j] {
      if b[i] == b[j] {
        var x := b[i];
        assert b == b[..j] + [x] + b[j + 1..];
        assert x in b[..j];
        assert multiset(b)[x] >= 2;
        DistinctCount(a, x);
      }
    }
  }

  /** A sequence without repetitions has as many elements as its set. */
  lemma {:induction false} DistinctCard<T>(s: seq<T>)
    requires Distinct(s)
    ensures |set x | x in s| == |s|
  {
    if s != [] {
      var rest := s[1..];
      assert Distinct(rest) by {
        forall i, j | 0 <= i < j < |rest| ensures rest[i] != rest[j] {
          assert rest[i] == s[i + 1] && rest[j] == s[j + 1];
        }
      }
      DistinctCard(rest);
      assert (set x | x in s) == (set x | x in rest) + {s[0]};
      assert s[0] !in rest;
    }
  }
}

=== FILE: text.dfy ===
/** The Python string operations the program relies on, over `seq<char>`. */
module Text {

  /** Python's `str.isspace()` for one character. */
  predicate IsSpace(c: char) {
    c == ' ' || ('\t' <= c <= '\r') || ('\U{1C}' <= c <= '\U{1F}')
    || c == '\U{85}' || c == '\U{A0}' || c == '\U{1680}'
    || ('\U{2000}' <= c <= '\U{200A}') || c == '\U{2028}' || c == '\U{2029}'
    || c == '\U{202F}' || c == '\U{205F}' || c == '\U{3000}'
  }

  predicate AllSpace(s: string) {
    forall i :: 0 <= i < |s| ==> IsSpace(s[i])
  }

  predicate NoSpace(s: string) {
    forall i :: 0 <= i < |s| ==> !IsSpace(s[i])
  }

  /** Number of leading whitespace characters. */
  function LeadingSpace(s: string): (n: nat)
    ensures n <= |s|
    ensures AllSpace(s[..n])
    ensures n < |s| ==> !IsSpace(s[n])
  {
    if s == [] || !IsSpace(s[0]) then 0
    else
      var n := 1 + LeadingSpace(s[1..]);
      assert s[..n] == [s[0]] + s[1..][..n - 1];
      n
  }

  /** Length of `s` once its trailing whitespace is removed. */
  function TrimmedEnd(s: string): (n: nat)
    ensures n <= |s|
    ensures AllSpace(s[n..])
    ensures n > 0 ==> !IsSpace(s[n - 1])
  {
    if s == [] || !IsSpace(s[|s| - 1]) then |s|
    else
      var n := TrimmedEnd(s[..|s| - 1]);
      assert s[n..] == s[..|s| - 1][n..] + [s[|s| - 1]];
      n
  }

  /** The bounds `[lo, hi)` of `s.strip()` inside `s`. */
  function StripBounds(s: string): (b: (nat, nat))
    ensures b.0 <= b.1 <= |s|
    ensures AllSpace(s[..b.0]) && AllSpace(s[b.1..])
    ensures b.0 < b.1 ==> !IsSpace(s[b.0]) && !IsSpace(s[b.1 - 1])
    ensures b.0 == b.1 ==> AllSpace(s)
  {
    var lo := LeadingSpace(s);
    var hi := lo + TrimmedEnd(s[lo..]);
    assert s[hi..] == s[lo..][hi - lo..];
    if lo == hi then
      AllSpaceJoin(s, lo);
      (lo, hi)
    else
      assert s[hi - 1] == s[lo..][hi - lo - 1];
      (lo, hi)
  }

  /** A string split into two all-whitespace parts is all whitespace. */
  lemma AllSpaceJoin(s: string, k: nat)
    requires k <= |s| && AllSpace(s[..k]) && AllSpace(s[k..])
    ensures AllSpace(s)
  {
    forall i | 0 <= i < |s|
      ensures IsSpace(s[i])
    {
      if i < k {
        assert s[i] == s[..k][i];
      } else {
        assert s[i] == s[k..][i - k];
      }
    }
  }

  /** Python's `s.strip()`. */
  function Strip(s: string): (r: string)
    ensures |r| <= |s|
    ensures r == [] <==> AllSpace(s)
    ensures r != [] ==> !IsSpace(r[0]) && !IsSpace(r[|r| - 1])
  {
    var b := StripBounds(s);
    if b.0 == b.1 then [] else
    assert !IsSpace(s[b.0]);
    s[b.0..b.1]
  }

  /** Python's `s[:n]`: the first `n` characters, or all of them when `s` is shorter. */
  function Take(s: string, n: nat): (r: string)
    ensures |r| == if |s| < n then |s| else n
    ensures r <= s
  {
    if |s| <= n then s else s[..n]
  }

  /** Python's `s.endswith(suffix)`. */
  predicate EndsWith(s: string, suffix: string) {
    |suffix| <= |s| && s[|s| - |suffix|..] == suffix
  }

  /** Lower-casing of one character, restricted to ASCII letters. */
  function LowerChar(c: char): char {
    if 'A' <= c <= 'Z' then (c as int - 'A' as int + 'a' as int) as char else c
  }

  /** Python's `s.lower()` on ASCII text. */
  function Lower(s: string): (r: string)
    ensures |r| == |s|
    ensures forall i :: 0 <= i < |s| ==> r[i] == LowerChar(s[i])
  {
    if s == [] then [] else [LowerChar(s[0])] + Lower(s[1..])
  }

  lemma {:induction false} LowerIdempotent(s: string)
    ensures Lower(Lower(s)) == Lower(s)
  {
    var l := Lower(s);
    assert forall i :: 0 <= i < |s| ==> Lower(l)[i] == l[i];
  }

  /** `needle` occurs in `hay` starting at index `i`. */
  predicate OccursAt(needle: string, hay: string, i: int) {
    0 <= i && i + |needle| <= |hay| && hay[i..i + |needle|] == needle
  }

  /** Python's `needle in hay`: the empty needle occurs everywhere. */
  function Contains(needle: string, hay: string): (r: bool)
    ensures r <==> exists i :: OccursAt(needle, hay, i)
    decreases |hay|
  {
    if needle <= hay then
      assert OccursAt(needle, hay, 0);
      true
    else if hay == [] then
      assert forall i :: !OccursAt(needle, hay, i);
      false
    else
      var r := Contains(needle, hay[1..]);
      if r then
        var i :| OccursAt(needle, hay[1..], i);
        assert OccursAt(needle, hay, i + 1);
        true
      else
        assert forall i :: OccursAt(needle, hay, i) ==> i > 0 && OccursAt(needle, hay[1..], i - 1);
        false
  }

  /** Python's `s.split()`: the maximal runs of non-whitespace characters. */
  function Split(s: string): (words: seq<string>)
    ensures forall w :: w in words ==> w != [] && NoSpace(w)
    decreases |s|
  {
    var lo := LeadingSpace(s);
    if lo == |s| then []
    else
      var rest := s[lo..];
      var n := WordLength(rest);
      [rest[..n]] + Split(rest[n..])
  }

  /** Length of the run of non-whitespace characters that starts `s`. */
  function WordLength(s: string): (n: nat)
    ensures n <= |s|
    ensures NoSpace(s[..n])
    ensures n < |s| ==> IsSpace(s[n])
    ensures s != [] && !IsSpace(s[0]) ==> n > 0
  {
    if s == [] || IsSpace(s[0]) then 0
    else
      var n := 1 + WordLength(s[1..]);
      assert s[..n] == [s[0]] + s[1..][..n - 1];
      n
  }

  /** Python's `a <= b` on strings: code-point lexicographic order. */
  predicate StrLe(a: string, b: string)
    decreases |a|
  {
    a == [] || (b != [] && (a[0] < b[0] || (a[0] == b[0] && StrLe(a[1..], b[1..]))))
  }

  lemma {:induction false} StrLeTotal(a: string, b: string)
    ensures StrLe(a, b) || StrLe(b, a)
    decreases |a|
  {
    if a != [] && b != [] && a[0] == b[0] {
      StrLeTotal(a[1..], b[1..]);
    }
  }

  lemma {:induction false} StrLeTransitive(a: string, b: string, c: string)
    requires StrLe(a, b) && StrLe(b, c)
    ensures StrLe(a, c)
    decreases |a|
  {
    if a != [] && a[0] == b[0] && b[0] == c[0] {
      StrLeTransitive(a[1..], b[1..], c[1..]);
    }
  }

  lemma {:induction false} StrLeAntisymmetric(a: string, b: string)
    requires StrLe(a, b) && StrLe(b, a)
    ensures a == b
    decreases |a|
  {
    if a != [] {
      StrLeAntisymmetric(a[1..], b[1..]);
      assert a == [a[0]] + a[1..];
      assert b == [b[0]] + b[1..];
    }
  }
}
